=== FILE: README.md ===
# TECO E510 ball-mill controller: a Dafny model

`teco_e510_inverter_app.py` drives a laboratory ball mill through a TECO E510
variable-frequency drive (VFD) over Modbus RTU. Underneath its Tkinter
interface sit four small pieces of logic, and this project models and proves
properties of each:

- **Register codec** (`registers.dfy`, module `Registers`). This is the
  `TECO_E510_Inverter` driver.
  - It decodes the 9-register motor nameplate block at 0x0200 and the
    7-register status block at 0x2523, scaled by 1/10 or 1/100.
  - It decodes the four status bits of register 0x2520.
  - It encodes the two writes the application issues: the operation mode to
    0x2501 (only 0 to 3) and the frequency command to 0x2502 (two implied
    decimals).
  - Reads are register sequences with every entry in [0, 65535]. A write is a
    `Write(address, value)` entry in a returned trace, so "nothing was
    written" can be stated.
- **Speed conversion** (`conversion.dfy`, module `Conversion`). Vessel rpm,
  shaft rpm and drive frequency are three views of one speed.
  - The views are linked by the diameter ratio and by the synchronous speed
    `round(120·f/poles)`.
  - The control mode (1, 2 or 3) picks which view is authoritative; the other
    two are recomputed from it.
  - `set_drive_frequency` then writes the frequency only when
    0 ≤ f ≤ rated frequency.
  - Also modelled: the widget limits of `read_motor_info` and the readout
    arithmetic of `sample_data`.
  - Arithmetic is on exact reals. Python's `round` (half to even, and with
    `ndigits`) and `int()` are defined in `rounding.dfy` (module `Rounding`).
- **Milling session** (`control.dfy`, module `Control`). The application
  state is one immutable record, `App`. Each command returns the new state
  and the writes it issued:
  - run, stop and pause/restart;
  - the milling timer with its automatic stop;
  - the status poll that evaluates the timer while the run bit is set;
  - the edit locks on duration, direction and diameters;
  - connecting and disconnecting.

  The source keeps start, stop and total time in globals that exist only
  after the first run; here they are `Option<int>` fields. Time is whole
  seconds and is passed in as `now`.
- **Duration text and port discovery**.
  - `milltime.dfy` (module `MillTime`) models `set_mill_time`, which formats
    "hh:mm" with Python's `'{:02}'`.
  - `discovery.dfy` (module `Discovery`) models `get_com_ports` and
    `find_inverter`: drop Intel ports, sort the device names, and try them in
    order. At each port the identity read answers, stays silent, or the port
    cannot be opened; that outcome is the parameter `probe`. The port is
    opened before the `try`, so an open failure ends the search.

`results.dfy` holds the `Option` and `Result` types.

Behaviour of the code that the model keeps as written:
- The worked defaults need an 8-pole, 50 Hz motor, a 220 mm vessel, a 45.4 mm
  shaft and 74 vessel rpm. They give a synchronous speed of 750 rpm and
  shaft round(358.59) = 359 rpm. The frequency is round(23.93, 1) = 23.9 Hz,
  written as 2390.
- The shaft → frequency → shaft round trip is not always within 1 rpm. One
  frequency step of 0.1 Hz is maxrpm/(10·f) rpm of shaft speed, which is
  6 rpm on a 2-pole 50 Hz motor. The model proves the general bound and a
  2-pole drift, and proves the ±1 bound only for the 8-pole default. For the
  default shaft speed the code gives round(358.59) = 359, and the model
  follows the code.
- The sampled motor rpm is truncated with `int()`, while the conversions
  round. At 23.93 Hz the readout shows 358 rpm where the conversion gives 359.
- The remaining time adds one second before it is truncated to whole
  seconds. With whole-second timestamps it is therefore shown one second
  longer than it is, and each pause/restart cycle moves the stop time one
  second further from the start.
- The automatic stop fires once round(elapsed/total, 3) ≥ 1. For a two-hour
  run that happens at 7197 s, three seconds early.
- Neither run nor stop resets the pause button's label.
- Disconnecting writes nothing, so a running motor keeps running.

## Model

| member | source | states |
|---|---|---|
| Rounding.Round | teco_e510_inverter_app.py:914 | the result is an integer within 1/2 of x, and an even one on a tie (Python's `round`) |
| Rounding.RoundUnique | teco_e510_inverter_app.py:914 | the rounding characterisation has only one solution, so it pins `round` down |
| Rounding.RoundMonotone | teco_e510_inverter_app.py:914 | rounding preserves order |
| Rounding.RoundDigits | teco_e510_inverter_app.py:929 | `round(x, n)` is a whole number of 10⁻ⁿ units, the one nearest to x with ties to the even unit, hence within half a unit of x |
| Rounding.RoundDigitsOnGrid | teco_e510_inverter_app.py:929 | `round(x, n)` leaves a value that already has n decimals unchanged |
| Rounding.Trunc | teco_e510_inverter_app.py:1159 | `int()` truncates toward zero: the result lies between x and zero, less than one away |
| Rounding.TruncBelowRound | teco_e510_inverter_app.py:1159-1162 | for x ≥ 0, truncation is the rounded value or one less |
| Registers.FromTenths | teco_e510_inverter_app.py:126-132 | finds the register word whose tenths give x; None exactly when no word does |
| Registers.FromHundredths | teco_e510_inverter_app.py:150-151 | finds the register word whose hundredths give x; None exactly when no word does |
| Registers.DecodeNameplate | teco_e510_inverter_app.py:126-132 | voltage, current, frequency and power are raw[4], raw[1], raw[6], raw[5] divided by 10; poles is raw[7] and speed is raw[3] |
| Registers.NameplateRoundTrip | teco_e510_inverter_app.py:126-132 | decoding the encoding of any representable nameplate gives it back |
| Registers.NameplateBlockRoundTrip | teco_e510_inverter_app.py:126-132 | re-encoding a decoded block restores every register the decoder reads |
| Registers.Bit | teco_e510_inverter_app.py:169-172 | `(w >> k) & 1` is 0 or 1 |
| Registers.DecodeFlags | teco_e510_inverter_app.py:169-173 | the four flags are bits, and the word's low four bits equal op + 2·dir + 4·ready + 8·fault |
| Registers.LowNibble | teco_e510_inverter_app.py:169-173 | the low four bits of a word are the weighted sum of bits 0 to 3 |
| Registers.EncodeFlags | teco_e510_inverter_app.py:169-173 | the flags pack into a word below 16 |
| Registers.FlagsRoundTrip | teco_e510_inverter_app.py:169-173 | packing any four bits and decoding gives them back |
| Registers.FlagsIgnoreHighBits | teco_e510_inverter_app.py:169-173 | bits above bit 3 do not influence the flags |
| Registers.NibbleDeterminesBits | teco_e510_inverter_app.py:169-173 | two flag sets with the same weighted sum are equal |
| Registers.DecodeStatus | teco_e510_inverter_app.py:150-173 | command and output frequency are raw/100; voltage, current and temperature raw/10; DC voltage and torque raw; flags from 0x2520 |
| Registers.StatusRoundTrip | teco_e510_inverter_app.py:150-173 | decoding the encoding of any representable snapshot gives it back |
| Registers.StatusBlockRoundTrip | teco_e510_inverter_app.py:150-157 | a decoded status block re-encodes to exactly the registers read |
| Registers.SetOperation | teco_e510_inverter_app.py:197-199 | accepted iff the mode is 0 to 3, then exactly the write (0x2501, mode); otherwise an error and no write |
| Registers.SetFrequency | teco_e510_inverter_app.py:187 | accepted iff the value fits a register with two decimals; it writes to 0x2502 a word whose hundredths are at most 0.01 below the request |
| Registers.FrequencyRoundTrip | teco_e510_inverter_app.py:187 | every register word's hundredths value is written as exactly that word |
| Conversion.MaxRpm | teco_e510_inverter_app.py:914 | fails exactly for zero poles; otherwise `round` of 120·f/poles: the nearest integer, ties to even |
| Conversion.ShaftFromVessel | teco_e510_inverter_app.py:926 | the shaft rpm is vessel rpm · mill diameter / shaft diameter rounded to the nearest integer, ties to even |
| Conversion.VesselFromShaft | teco_e510_inverter_app.py:937 | the vessel rpm is shaft rpm · shaft diameter / mill diameter rounded to the nearest integer, ties to even |
| Conversion.FrequencyFromShaft | teco_e510_inverter_app.py:929 | the frequency is shaft/maxrpm · rated frequency rounded to one decimal: a whole number of tenths, the nearest one with ties to the even tenth, hence within 0.05 Hz |
| Conversion.ShaftFromFrequency | teco_e510_inverter_app.py:946 | the shaft rpm is maxrpm · frequency / rated frequency rounded to the nearest integer, ties to even |
| Conversion.RoundTenthsBound | teco_e510_inverter_app.py:929 | a frequency rounded to one decimal is within 0.05 Hz of the exact value |
| Conversion.VesselPass | teco_e510_inverter_app.py:919-929 | vessel rpm is kept; shaft is vessel·D/d rounded half to even and frequency the nearest tenth to shaft/maxrpm·f; fails exactly on a zero divisor: a zero shaft diameter changes nothing, a zero maxrpm keeps the new shaft and the old frequency |
| Conversion.ShaftPass | teco_e510_inverter_app.py:930-939 | shaft rpm is kept; vessel is shaft·d/D rounded half to even and frequency the nearest tenth to shaft/maxrpm·f; fails exactly on a zero divisor: a zero vessel diameter changes nothing, a zero maxrpm keeps the new vessel and the old frequency |
| Conversion.FrequencyPass | teco_e510_inverter_app.py:940-949 | frequency is kept; shaft is maxrpm·f/rated rounded half to even, then vessel is that shaft·d/D rounded half to even; fails exactly on a zero divisor: a zero rated frequency changes nothing, a zero vessel diameter keeps the new shaft and the old vessel |
| Conversion.Recompute | teco_e510_inverter_app.py:911-951 | zero poles fails before the mode is looked at; modes 1, 2 and 3 run their pass; any other mode fails with nothing changed |
| Conversion.SetDriveFrequency | teco_e510_inverter_app.py:908-961 | nothing happens without an inverter; at most one write, issued iff the recompute succeeded and 0 ≤ f ≤ rated frequency (and the value fits the register); out-of-range notice iff outside that range; a failed recompute reports its error with the partly updated speeds and no write; a frequency in range but at or above 655.36 is refused by the driver, without a write |
| Conversion.MotorLimits | teco_e510_inverter_app.py:817-834 | fails iff zero poles or zero vessel diameter; the limits are the rated frequency, the synchronous speed, and the vessel speed that is it scaled by d/D and rounded half to even |
| Conversion.SampleReadout | teco_e510_inverter_app.py:1155-1166 | motor rpm is ⌊120·f/poles⌋; mill rpm is motor rpm·d/D rounded half to even; fails iff zero poles or zero vessel diameter |
| Conversion.VesselRoundTrip | teco_e510_inverter_app.py:926-937 | when the shaft is thinner than the vessel, vessel → shaft → vessel returns the same rpm |
| Conversion.ShaftRoundTripBound | teco_e510_inverter_app.py:929-946 | shaft → frequency → shaft moves by at most 1/2 + maxrpm/(20·f) rpm |
| Conversion.BackToShaft | teco_e510_inverter_app.py:940-946 | any frequency within 0.05 Hz of shaft/maxrpm·f converts back to within 1/2 + maxrpm/(20·f) rpm of the shaft speed |
| Conversion.EightPoleShaftRoundTrip | teco_e510_inverter_app.py:929-946 | on the 750 rpm, 50 Hz default motor the shaft round trip is within 1 rpm |
| Conversion.TwoPoleShaftRoundTripDrifts | teco_e510_inverter_app.py:914-946 | on a 2-pole 50 Hz motor, 2 rpm becomes 1/30 Hz, rounds to 0.0 Hz and returns as 0 rpm |
| Conversion.LimitsConsistent | teco_e510_inverter_app.py:817-834 | the maximum shaft speed converts to exactly the rated frequency and back |
| Conversion.FullShaftIsRated | teco_e510_inverter_app.py:929 | the synchronous speed converts to exactly a rated frequency given in tenths |
| Conversion.ModeSwitchFixpoint | teco_e510_inverter_app.py:918-939 | switching from vessel to shaft control changes none of the three speeds |
| Conversion.WorkedExample | teco_e510_inverter_app.py:914-957 | the defaults give 750 rpm, shaft 359 rpm, 23.9 Hz and the write (0x2502, 2390) |
| Conversion.ReadoutTruncates | teco_e510_inverter_app.py:1159 | at 23.93 Hz the readout shows 358 rpm while the conversion gives 359 |
| Conversion.ReadoutWithinOneOfRounded | teco_e510_inverter_app.py:1159 | the readout's motor rpm is the rounded speed or one less |
| Control.StopCode | teco_e510_inverter_app.py:1067-1069 | the stop code is 0 or 2 |
| Control.RunCode | teco_e510_inverter_app.py:1052-1054 | the run code is one above the stop code, so 1 or 3 |
| Control.Initial | teco_e510_inverter_app.py:224-254 | the application starts with no inverter, everything locked and a duration of 02:00 |
| Control.OperationWrite | teco_e510_inverter_app.py:197-199 | the driver accepts every code the application sends |
| Control.Run | teco_e510_inverter_app.py:1012-1058 | with an inverter: start = now, stop = start + (60·h + m)·60 s, all edits locked, diameter editing closed, pause enabled, and exactly the run code written, with every other field (speeds, mode, duration, direction, pause label) unchanged; without one, nothing |
| Control.Stop | teco_e510_inverter_app.py:1061-1088 | with an inverter: exactly the stop code written, edits unlocked, pause disabled, timing untouched; without one, nothing |
| Control.Pause | teco_e510_inverter_app.py:1091-1130 | PAUSE writes the stop code and shows RESTART; RESTART shows PAUSE, sets start = now − shown elapsed and stop = now + shown remaining, and writes the run code, or fails without writing when the times were never shown; nothing else changes in either branch |
| Control.MillPeriod | teco_e510_inverter_app.py:968-1009 | zero duration fails; at rounded progress ≥ 1 exactly one stop is written, progress shows 1, elapsed the total and remaining 0; the stop changes only the locks, the pause button, the displays and the message; below it nothing is written, only the displays change, and remaining shows one second extra |
| Control.Sample | teco_e510_inverter_app.py:1144-1179 | at most one write, and only the timer's stop; nothing is written unless the run bit is set; a failed read only reports; timing is never changed; with the run bit set, a readout that converts and a positive duration, the stop is written exactly when 2000·elapsed ≥ 1999·total; a converting read shows the decoded readout, a failing one only reports; after a stop the locks are released and pause disabled; nothing but the readout, displays, message, locks and pause button ever changes; with the run bit set and a converting read, the step is the timer's `MillPeriod` on the updated readout when a run has started, and otherwise the failure message without a write |
| Control.EditDuration | teco_e510_inverter_app.py:1023-1025 | the duration cannot change while its spinboxes are locked |
| Control.EditDirection | teco_e510_inverter_app.py:1027-1029 | the direction cannot change while its radio buttons are locked |
| Control.ToggleDiameterEditing | teco_e510_inverter_app.py:881-890 | the diameter edit toggle flips only when unlocked |
| Control.EditGeometry | teco_e510_inverter_app.py:881-890 | the diameters change only while diameter editing is open |
| Control.ApplySpeeds | teco_e510_inverter_app.py:908-961 | at most one write, to 0x2502; with an inverter the frequency is written exactly when the recompute succeeds and its frequency lies in [0, rated] and in one register, and then the word is the frequency in hundredths, truncated; the shown speeds are the recomputed ones; only mode, speeds and message change, and the message reports the notice of `set_drive_frequency`; without an inverter only mode and speeds change |
| Control.Connect | teco_e510_inverter_app.py:748-762 | the inverter is set, controls unlock, vessel control at 74 rpm is selected with the recomputed speeds, pause is disabled and nothing else changes; the writes are an optional frequency write, made exactly when the recompute succeeds and the frequency is in range, then the stop code |
| Control.Disconnect | teco_e510_inverter_app.py:763-775 | no inverter, every edit locked and the disconnect message shown; everything else, including timing, geometry and diameter editing, is kept |
| Control.OpcodesMatchStatusBits | teco_e510_inverter_app.py:1052-1054 | the run code sets status bit 0 and the stop code clears it; both carry the direction in bit 1 |
| Control.RoundReachesThousand | teco_e510_inverter_app.py:978 | the rounded value reaches 1000 exactly from 999.5 upward |
| Control.AutoStopThreshold | teco_e510_inverter_app.py:978-981 | for a positive duration, round(e/T, 3) ≥ 1 iff 2000·e ≥ 1999·T |
| Control.TimerStopsAtThreshold | teco_e510_inverter_app.py:978-982 | the timer writes a stop iff 2000·elapsed ≥ 1999·total |
| Control.TwoHourRunStopsEarly | teco_e510_inverter_app.py:978-982 | a two-hour run is not stopped at 7196 s and is stopped at 7197 s |
| Control.HalfHourIntoTwoHours | teco_e510_inverter_app.py:970-1006 | 30 minutes into 2 hours: progress 0.25, 1800 s elapsed, 5401 s remaining, no write |
| Control.RunLocksEditing | teco_e510_inverter_app.py:1023-1034 | after a run no duration, direction or diameter edit has any effect |
| Control.StopReleasesEditing | teco_e510_inverter_app.py:1071-1079 | after a stop the duration, direction and diameter toggle are editable again |
| Control.PauseRestartAddsASecond | teco_e510_inverter_app.py:1099-1127 | after a timer update, a pause and a restart, stop − start has grown by exactly one second and the total is unchanged |
| Control.StaleRestartLabel | teco_e510_inverter_app.py:1012-1130 | after pause, stop and a new run, the first pause click does not send the stop code |
| Control.DisconnectedIsInert | teco_e510_inverter_app.py:1012-1150 | without an inverter, run, stop, pause and sample change nothing and write nothing |
| Control.ConnectWithDefaults | teco_e510_inverter_app.py:748-762 | connecting to the default motor writes 2390 to 0x2502, then stop code 0 to 0x2501 |
| MillTime.Decimal | teco_e510_inverter_app.py:898 | decimal digits, one digit exactly below 10 and at most two below 100 |
| MillTime.Pad2 | teco_e510_inverter_app.py:898 | `'{:02}'` gives two characters exactly for 0 to 99, and a leading '-' exactly for negatives |
| MillTime.MillTimeText | teco_e510_inverter_app.py:898 | for two-digit values the text is "hh:mm" |
| MillTime.FindColon | teco_e510_inverter_app.py:898 | finds the first colon, or none |
| MillTime.DecimalRoundTrip | teco_e510_inverter_app.py:898 | the digits read back to the number |
| MillTime.Pad2RoundTrip | teco_e510_inverter_app.py:898 | `int()` of the padded text is the number; the text has no colon |
| MillTime.MillTimeRoundTrip | teco_e510_inverter_app.py:893-901 | every hour and minute pair, in range or not, is recovered from its text |
| MillTime.SpinboxTimesFixedWidth | teco_e510_inverter_app.py:462-467 | every duration the spinboxes offer is five characters long |
| MillTime.NegativeNotPadded | teco_e510_inverter_app.py:898 | −5 h 7 min is shown as "-5:07" |
| Discovery.LessEqReflexive | teco_e510_inverter_app.py:704 | string order is reflexive |
| Discovery.LessEqTotal | teco_e510_inverter_app.py:704 | string order is total |
| Discovery.LessEqAntisymmetric | teco_e510_inverter_app.py:704 | string order is antisymmetric |
| Discovery.LessEqTransitive | teco_e510_inverter_app.py:704 | string order is transitive |
| Discovery.Candidates | teco_e510_inverter_app.py:703 | the devices are exactly those of ports whose manufacturer is not "Intel" |
| Discovery.Insert | teco_e510_inverter_app.py:704 | inserting into a sorted list keeps it sorted and adds exactly one element |
| Discovery.Sort | teco_e510_inverter_app.py:704 | the result is sorted and a permutation of the input |
| Discovery.ComPorts | teco_e510_inverter_app.py:698-707 | the sorted non-Intel devices, as a permutation of the candidates |
| Discovery.FirstDecisive | teco_e510_inverter_app.py:717-731 | the loop stops at the first device that answers or cannot be opened, and every device before it stays silent; no stop iff every device stays silent |
| Discovery.FindInverter | teco_e510_inverter_app.py:710-731 | the sorted candidates are tried in order: a found device answers and an open failure names the device that failed to open, both from the sorted list; nothing is found iff every listed device stays silent (the least-device characterisation is `FindInverterLeast`) |
| Discovery.FindInverterLeast | teco_e510_inverter_app.py:710-731 | the search ends at the least non-Intel device that does not stay silent: found if it answers, aborted if opening it raises; not found iff every non-Intel device stays silent |
| Discovery.IntelIgnored | teco_e510_inverter_app.py:703 | an answering Intel port is never tried |
| Discovery.SortedOrderWins | teco_e510_inverter_app.py:704-731 | of COM4 and COM3, COM3 is tried first and decides the outcome |
| Discovery.OpenFailureEndsSearch | teco_e510_inverter_app.py:717-719 | a port that cannot be opened ends the search although a later port would answer |

## Left out

- The Tkinter and ttkbootstrap interface is not modelled. This covers widget creation and layout, meters, colours, message boxes, the About text, and the wording of messages. Messages are reduced to the `Message` and `Notice` kinds.
- The `minimalmodbus` transport is not modelled: serial I/O, RTU framing and CRC. Reads are given register sequences. Writes are trace entries that always reach the drive, so a failed write is not modelled.
- `get_inverter_details` (the identity at 0x0D00) is not modelled; the model never uses it. Port discovery gets each port's outcome from the parameter `probe`.
- `pyserial` port enumeration is not modelled; the port list is an input.
- The wall clock is not modelled: `datetime.now()` becomes the parameter `now`, in whole seconds. The 200 ms `after` polling is not modelled; each `Sample` call is one poll.
- The timer texts are not modelled: the `strftime`/`strptime` "hh:mm:ss" conversions and the progress percentage. Shown times are whole seconds. The source's conversions fail in three cases: a negative remaining time, a duration of 24 h or more, and a timestamp with no fractional second. The model does not reproduce those failures.
- With sub-second timestamps, truncating the shown times usually absorbs the extra second. The whole-second clock is where the one-second drift of pause/restart shows up.
- IEEE-754 floats are not modelled; arithmetic is on exact reals. `round(x, 1)` and `int(value·100)` therefore follow exact arithmetic, not binary rounding.
- Registers.SetFrequency: `minimalmodbus`'s scaling by 10² is not shown. The model assumes it converts `int(value·100)` and rejects values outside one register. This is stated as a bound on the written word, not as a bit-exact encoding.
- The Python-level argument parsing of the duration spinboxes (`int()` of the typed text) is not modelled. Hours and minutes are integers.
- Conversion.MotorLimits: the source sets each widget maximum as it goes, so a failure part-way leaves the earlier maxima set. The model returns only success with all three, or the error.
- The case in `find_inverter` where the identity read succeeds but `model is None` cannot happen, because the model is `str(...)`. Success is therefore the same as the probe succeeding.
- Control.Connect: this is connection with a nameplate that was read. A failure to open the port or to read the nameplate is not modelled.
- Control.EditGeometry: this is the value change alone. An arrow click on a diameter spinbox also runs `set_drive_frequency`, which is `Control.ApplySpeeds`.
- Pressing a disabled button is not modelled; `Run`, `Stop` and `Pause` model the handlers themselves.

=== FILE: control.dfy ===
/**
 The milling session of `BallMillControl`: run, stop and pause/restart
 commands, the milling timer with its automatic stop, the status poll that
 drives it, and the edit locks on duration, direction and diameters.
 Wall-clock time enters as the parameter `now`, in whole seconds.
 */
module Control {
  import opened Results
  import opened Rounding
  import opened Registers
  import opened Conversion

  /** Rotation direction, as the radio buttons encode it: 0 forward, 2 reverse. */
  datatype Direction = Forward | Reverse

  /** The operation mode that stops the motor in direction d. */
  function StopCode(d: Direction): (code: int)
    ensures code in {0, 2}
  {
    if d == Forward then 0 else 2
  }

  /** The operation mode that runs the motor in direction d: one above the stop code. */
  function RunCode(d: Direction): (code: int)
    ensures code in {1, 3} && code == StopCode(d) + 1
  {
    1 + StopCode(d)
  }

  /** The label of the pause button, which is the only record of a pause. */
  datatype PauseLabel = ShowsPause | ShowsRestart

  /** Which editing widgets are disabled. */
  datatype Locks = Locks(duration: bool, direction: bool, diameters: bool)

  const AllLocked: Locks := Locks(true, true, true)
  const AllUnlocked: Locks := Locks(false, false, false)

  /** What the message line last said, reduced to its meaning. */
  datatype Message =
    | NoMessage
    | RunningMessage(direction: Direction)
    | StoppedMessage
    | PausedMessage
    | RestartedMessage
    | CompletedMessage       // the automatic stop, told apart from a manual one
    | RestartFailed          // the shown times could not be read back
    | ProgressFailed         // division by a zero milling duration
    | SampleFailed           // failed status read, zero divisor, or no run started yet
    | DisconnectedMessage    // the connect box was unticked
    | SpeedsMessage(notice: Notice)

  /**
   The application state. `inverter` is `None` exactly when the source's
   `self.inverter` is; the three timing fields are the source's module-level
   globals, which do not exist until the first run.
   */
  datatype App = App(
    inverter: Option<Nameplate>,
    geometry: Geometry,
    mode: int,
    speeds: Speeds,
    direction: Direction,
    hours: int,
    minutes: int,
    pauseLabel: PauseLabel,
    pauseEnabled: bool,
    locks: Locks,
    diameterEditing: bool,
    startTime: Option<int>,
    stopTime: Option<int>,
    totalTime: Option<int>,
    shownElapsed: Option<int>,
    shownRemaining: Option<int>,
    progress: real,
    readout: Option<Readout>,
    message: Message
  )

  /** A new state together with the register writes that produced it, in order. */
  datatype Step = Step(app: App, writes: seq<Write>)

  /** The application before any inverter is found: 02:00 duration, forward, default diameters. */
  function Initial(): (a: App)
    ensures a.inverter.None? && a.locks == AllLocked && a.hours == 2 && a.minutes == 0
  {
    App(None, DefaultGeometry, 0, Speeds(0, 0, 0.0), Forward, 2, 0, ShowsPause, false,
        AllLocked, false, None, None, None, None, None, 0.0, None, NoMessage)
  }

  /** The milling duration in seconds, `timedelta(hours=h, minutes=m)`. */
  function Duration(hours: int, minutes: int): int
  {
    (hours * 60 + minutes) * 60
  }

  /** The operation write the driver issues for a mode the application always passes in range. */
  function OperationWrite(code: int): (w: Write)
    requires 0 <= code <= 3
    ensures SetOperation(code) == Ok(w)
  {
    SetOperation(code).value
  }

  /**
   `run_motor`: lock editing, start the clock at `now`, set the stop time one
   duration later, and send the run code of the chosen direction.
   */
  function Run(a: App, now: int): (s: Step)
    ensures a.inverter.None? ==> s == Step(a, [])
    ensures a.inverter.Some? ==>
      && s.writes == [Write(OperationAddress, RunCode(a.direction))]
      && s.app.startTime == Some(now)
      && s.app.totalTime == Some(Duration(a.hours, a.minutes))
      && s.app.stopTime == Some(now + Duration(a.hours, a.minutes))
      && s.app.locks == AllLocked && !s.app.diameterEditing && s.app.pauseEnabled
      && s.app == a.(locks := AllLocked, diameterEditing := false, pauseEnabled := true,
                     startTime := Some(now), stopTime := Some(now + Duration(a.hours, a.minutes)),
                     totalTime := Some(Duration(a.hours, a.minutes)), message := RunningMessage(a.direction))
  {
    if a.inverter.None? then Step(a, [])
    else
      var total := Duration(a.hours, a.minutes);
      var running := a.(locks := AllLocked, diameterEditing := false, pauseEnabled := true,
                        startTime := Some(now), stopTime := Some(now + total), totalTime := Some(total),
                        message := RunningMessage(a.direction));
      Step(running, [OperationWrite(RunCode(a.direction))])
  }

  /** `stop_motor`: send the stop code of the current direction and release the edit locks. */
  function Stop(a: App): (s: Step)
    ensures a.inverter.None? ==> s == Step(a, [])
    ensures a.inverter.Some? ==>
      && s.writes == [Write(OperationAddress, StopCode(a.direction))]
      && s.app.locks == AllUnlocked && !s.app.pauseEnabled
      && s.app == a.(locks := AllUnlocked, pauseEnabled := false, message := StoppedMessage)
  {
    if a.inverter.None? then Step(a, [])
    else Step(a.(locks := AllUnlocked, pauseEnabled := false, message := StoppedMessage),
              [OperationWrite(StopCode(a.direction))])
  }

  /**
   `pause_motor`: on PAUSE, send the stop code and relabel the button
   RESTART; on RESTART, relabel it PAUSE, rebuild start and stop around `now`
   from the shown elapsed and remaining times, and send the run code.
   */
  function Pause(a: App, now: int): (s: Step)
    ensures a.inverter.None? ==> s == Step(a, [])
    ensures a.inverter.Some? && a.pauseLabel == ShowsPause ==>
      && s.writes == [Write(OperationAddress, StopCode(a.direction))]
      && s.app == a.(pauseLabel := ShowsRestart, message := PausedMessage)
    ensures a.inverter.Some? && a.pauseLabel == ShowsRestart ==>
      && s.app.pauseLabel == ShowsPause
      && s.app.totalTime == a.totalTime
      && (a.shownElapsed.None? || a.shownRemaining.None? ==>
            s.writes == [] && s.app == a.(pauseLabel := ShowsPause, message := RestartFailed))
      && (a.shownElapsed.Some? && a.shownRemaining.Some? ==>
            && s.writes == [Write(OperationAddress, RunCode(a.direction))]
            && s.app.startTime == Some(now - a.shownElapsed.value)
            && s.app.stopTime == Some(now + a.shownRemaining.value)
            && s.app.stopTime.value - s.app.startTime.value == a.shownElapsed.value + a.shownRemaining.value
            && s.app == a.(pauseLabel := ShowsPause, startTime := Some(now - a.shownElapsed.value),
                           stopTime := Some(now + a.shownRemaining.value), message := RestartedMessage))
  {
    if a.inverter.None? then Step(a, [])
    else
      match a.pauseLabel
      case ShowsPause =>
        Step(a.(pauseLabel := ShowsRestart, message := PausedMessage), [OperationWrite(StopCode(a.direction))])
      case ShowsRestart =>
        var relabelled := a.(pauseLabel := ShowsPause);
        if a.shownElapsed.None? || a.shownRemaining.None? then
          Step(relabelled.(message := RestartFailed), [])
        else
          Step(relabelled.(startTime := Some(now - a.shownElapsed.value),
                           stopTime := Some(now + a.shownRemaining.value),
                           message := RestartedMessage),
               [OperationWrite(RunCode(a.direction))])
  }

  /**
   `mill_period`: elapsed = now - start, remaining = stop - now + 1 s,
   progress = round(elapsed / total, 3). From progress 1 on, the motor is
   stopped, progress is clamped to 1 and the times show total and zero.
   */
  function MillPeriod(a: App, start: int, stop: int, total: int, now: int): (s: Step)
    requires a.inverter.Some?
    ensures total == 0 ==> s == Step(a.(message := ProgressFailed), [])
    ensures total != 0 && RoundDigits((now - start) as real / total as real, 3) >= 1.0 ==>
      && s.writes == [Write(OperationAddress, StopCode(a.direction))]
      && s.app.progress == 1.0 && s.app.shownElapsed == Some(total) && s.app.shownRemaining == Some(0)
      && s.app.locks == AllUnlocked && s.app.message == CompletedMessage
      && s.app == a.(locks := AllUnlocked, pauseEnabled := false, progress := 1.0,
                     shownElapsed := Some(total), shownRemaining := Some(0), message := CompletedMessage)
    ensures total != 0 && RoundDigits((now - start) as real / total as real, 3) < 1.0 ==>
      && s.writes == []
      && s.app == a.(progress := RoundDigits((now - start) as real / total as real, 3),
                     shownElapsed := Some(now - start), shownRemaining := Some(stop - now + 1))
  {
    if total == 0 then Step(a.(message := ProgressFailed), [])
    else
      var elapsed := now - start;
      var remaining := stop - now + 1;
      var progress := RoundDigits(elapsed as real / total as real, 3);
      if progress >= 1.0 then
        var stopped := Stop(a);
        Step(stopped.app.(progress := 1.0, shownElapsed := Some(total), shownRemaining := Some(0),
                          message := CompletedMessage),
             stopped.writes)
      else
        Step(a.(progress := progress, shownElapsed := Some(elapsed), shownRemaining := Some(remaining)), [])
  }

  /** One status poll: the status block and flag word, or no answer. */
  datatype StatusRead = StatusRead(block: seq<int>, word: int) | NoResponse

  predicate WellFormed(r: StatusRead)
  {
    r.StatusRead? ==> IsBlock(r.block, StatusCount) && IsWord(r.word)
  }

  /**
   `sample_data`: decode the status, update the readout, and evaluate the
   timer when the status word's run bit is set.
   */
  function Sample(a: App, read: StatusRead, now: int): (s: Step)
    requires WellFormed(read)
    ensures a.inverter.None? ==> s == Step(a, [])
    ensures read.NoResponse? && a.inverter.Some? ==> s == Step(a.(message := SampleFailed), [])
    ensures |s.writes| <= 1
    ensures s.writes != [] ==> s.writes == [Write(OperationAddress, StopCode(a.direction))] && s.app.message == CompletedMessage
    ensures read.StatusRead? && DecodeFlags(read.word).operation != 1 ==> s.writes == []
    ensures s.app.startTime == a.startTime && s.app.stopTime == a.stopTime && s.app.totalTime == a.totalTime
    ensures a.inverter.Some? && read.StatusRead? && DecodeFlags(read.word).operation == 1
            && a.inverter.value.poles != 0 && a.geometry.millDiameter != 0.0
            && a.startTime.Some? && a.stopTime.Some? && a.totalTime.Some? && a.totalTime.value > 0 ==>
      (s.writes != [] <==> 2000 * (now - a.startTime.value) >= 1999 * a.totalTime.value)
    ensures a.inverter.Some? && read.StatusRead? ==>
      var readout := SampleReadout(DecodeStatus(read.block, read.word).outputFrequency, a.inverter.value.poles, a.geometry);
      && (readout.Err? ==> s == Step(a.(message := SampleFailed), []))
      && (readout.Ok? ==> s.app.readout == Some(readout.value))
      && (readout.Ok? && DecodeFlags(read.word).operation != 1 ==> s == Step(a.(readout := Some(readout.value)), []))
    ensures s.writes != [] ==> s.app.locks == AllUnlocked && !s.app.pauseEnabled
    // With the run bit set and a readout shown, the timer runs when a run has started and the poll fails otherwise.
    ensures a.inverter.Some? && read.StatusRead? && DecodeFlags(read.word).operation == 1 ==>
      var readout := SampleReadout(DecodeStatus(read.block, read.word).outputFrequency, a.inverter.value.poles, a.geometry);
      readout.Ok? ==>
        if a.startTime.Some? && a.stopTime.Some? && a.totalTime.Some? then
          s == MillPeriod(a.(readout := Some(readout.value)), a.startTime.value, a.stopTime.value, a.totalTime.value, now)
        else
          s == Step(a.(readout := Some(readout.value), message := SampleFailed), [])
    // Only the readout, the timer displays, the message and, on an automatic stop, the locks and the pause button change.
    ensures s.app.(readout := a.readout, progress := a.progress, shownElapsed := a.shownElapsed,
                   shownRemaining := a.shownRemaining, message := a.message,
                   locks := a.locks, pauseEnabled := a.pauseEnabled) == a
  {
    if a.inverter.None? then Step(a, [])
    else
      match read
      case NoResponse => Step(a.(message := SampleFailed), [])
      case StatusRead(block, word) =>
        var snapshot := DecodeStatus(block, word);
        match SampleReadout(snapshot.outputFrequency, a.inverter.value.poles, a.geometry)
        case Err(_) => Step(a.(message := SampleFailed), [])
        case Ok(readout) =>
          var shown := a.(readout := Some(readout));
          if snapshot.flags.operation != 1 then Step(shown, [])
          else if shown.startTime.None? || shown.stopTime.None? || shown.totalTime.None? then
            Step(shown.(message := SampleFailed), [])
          else
            ThresholdWhenPositive(now - shown.startTime.value, shown.totalTime.value);
            MillPeriod(shown, shown.startTime.value, shown.stopTime.value, shown.totalTime.value, now)
  }

  // ---------------------------------------------------------------------------
  // Editing, through widgets that are disabled while locked.

  function EditDuration(a: App, hours: int, minutes: int): (b: App)
    ensures a.locks.duration ==> b == a
    ensures !a.locks.duration ==> b.hours == hours && b.minutes == minutes
  {
    if a.locks.duration then a else a.(hours := hours, minutes := minutes)
  }

  function EditDirection(a: App, d: Direction): (b: App)
    ensures a.locks.direction ==> b == a
    ensures !a.locks.direction ==> b.direction == d
  {
    if a.locks.direction then a else a.(direction := d)
  }

  /** The check button that opens or closes the diameter fields (`edit_mill_diameter`). */
  function ToggleDiameterEditing(a: App): (b: App)
    ensures a.locks.diameters ==> b == a
    ensures !a.locks.diameters ==> b.diameterEditing != a.diameterEditing
  {
    if a.locks.diameters then a else a.(diameterEditing := !a.diameterEditing)
  }

  function EditGeometry(a: App, g: Geometry): (b: App)
    ensures !a.diameterEditing ==> b == a
    ensures a.diameterEditing ==> b.geometry == g
  {
    if a.diameterEditing then a.(geometry := g) else a
  }

  /** A speed control changed: run `set_drive_frequency` on the current state. */
  function ApplySpeeds(a: App, mode: int, speeds: Speeds): (s: Step)
    ensures a.inverter.None? ==> s.writes == [] && s.app == a.(mode := mode, speeds := speeds)
    ensures a.inverter.Some? ==>
      s.app.message == SpeedsMessage(SetDriveFrequency(true, a.inverter.value, a.geometry, mode, speeds).notice)
    ensures |s.writes| <= 1
    ensures s.writes != [] ==>
      && s.writes[0].address == FrequencyAddress
      && 0.0 <= s.app.speeds.frequency <= a.inverter.value.frequency
      && s.app.speeds.frequency - 0.01 < Hundredths(s.writes[0].value) <= s.app.speeds.frequency
    // Only the mode, the speeds and the message change.
    ensures s.app.(mode := a.mode, speeds := a.speeds, message := a.message) == a
    ensures s.app.mode == mode
    ensures a.inverter.Some? ==>
      (s.writes != [] <==>
        && Recompute(a.inverter.value, a.geometry, mode, speeds).error.None?
        && 0.0 <= s.app.speeds.frequency <= a.inverter.value.frequency
        && s.app.speeds.frequency < 655.36)
    ensures a.inverter.Some? ==> s.app.speeds == Recompute(a.inverter.value, a.geometry, mode, speeds).speeds
  {
    match a.inverter
    case None => Step(a.(mode := mode, speeds := speeds), [])
    case Some(np) =>
      var applied := SetDriveFrequency(true, np, a.geometry, mode, speeds);
      Step(a.(mode := mode, speeds := applied.speeds, message := SpeedsMessage(applied.notice)), applied.writes)
  }

  /**
   The successful path of `connect_inverter`: with the nameplate read, the
   controls are enabled, vessel control is selected at 74 rpm (which sets the
   frequency), and the motor is stopped. The poll that `start_sampling` runs
   straight afterwards is the next `Sample` step.
   */
  function Connect(a: App, np: Nameplate): (s: Step)
    ensures s.app.inverter == Some(np)
    ensures s.app.locks == AllUnlocked && s.app.mode == VesselMode && s.app.speeds.vessel == 74
    ensures s.app.speeds == Recompute(np, a.geometry, VesselMode, a.speeds.(vessel := 74)).speeds
    ensures !s.app.pauseEnabled && s.app.message == StoppedMessage
    ensures s.app == a.(inverter := Some(np), locks := AllUnlocked, mode := VesselMode, speeds := s.app.speeds,
                        pauseEnabled := false, message := StoppedMessage)
    ensures 1 <= |s.writes| <= 2 && s.writes[|s.writes| - 1] == Write(OperationAddress, StopCode(a.direction))
    ensures |s.writes| == 2 ==>
      && s.writes[0].address == FrequencyAddress
      && s.app.speeds.frequency - 0.01 < Hundredths(s.writes[0].value) <= s.app.speeds.frequency
    ensures |s.writes| == 2 <==>
      && Recompute(np, a.geometry, VesselMode, a.speeds.(vessel := 74)).error.None?
      && 0.0 <= s.app.speeds.frequency <= np.frequency && s.app.speeds.frequency < 655.36
  {
    var enabled := a.(inverter := Some(np), locks := AllUnlocked);
    var speeds := ApplySpeeds(enabled, VesselMode, enabled.speeds.(vessel := 74));
    var stopped := Stop(speeds.app);
    Step(stopped.app, speeds.writes + stopped.writes)
  }

  /**
   Unticking the connect box: no inverter, every editing widget disabled.
   Nothing is written, so a running motor is left running.
   */
  function Disconnect(a: App): (b: App)
    ensures b.inverter.None? && b.locks == AllLocked && b.message == DisconnectedMessage
    // Everything else is kept: the timing, the geometry and diameter editing survive.
    ensures b.(inverter := a.inverter, locks := a.locks, message := a.message) == a
  {
    a.(inverter := None, locks := AllLocked, message := DisconnectedMessage)
  }

  // ---------------------------------------------------------------------------
  // Properties

  /** The run and stop codes use the bit layout of the status word: bit 0 runs, bit 1 reverses. */
  lemma OpcodesMatchStatusBits(d: Direction)
    ensures DecodeFlags(RunCode(d)).operation == 1
    ensures DecodeFlags(StopCode(d)).operation == 0
    ensures DecodeFlags(RunCode(d)).direction == DecodeFlags(StopCode(d)).direction == (if d == Reverse then 1 else 0)
  {
    LowNibble(RunCode(d));
    LowNibble(StopCode(d));
  }

  /** A tie at 999.5 rounds up to the even 1000, so round(y) >= 1000 exactly when y >= 999.5. */
  lemma RoundReachesThousand(y: real)
    ensures Round(y) >= 1000 <==> y >= 999.5
  {
    if y >= 999.5 {
      RoundUnique(999.5, 1000);
      RoundMonotone(999.5, y);
    }
  }

  /**
   The automatic stop, stated without rounding: for a positive duration the
   rounded progress reaches 1 exactly when 2000 * elapsed >= 1999 * total.
   */
  lemma {:induction false} AutoStopThreshold(elapsed: int, total: int)
    requires total > 0
    ensures RoundDigits(elapsed as real / total as real, 3) >= 1.0 <==> 2000 * elapsed >= 1999 * total
  {
    var x := elapsed as real / total as real;
    assert Pow10(3) == 1000;
    RoundToGridUnfold(x, 1000.0);
    RoundReachesThousand(x * 1000.0);
    ScaledProgress(elapsed, total);
  }

  /** `AutoStopThreshold` for any duration, vacuous when it is not positive. */
  lemma ThresholdWhenPositive(elapsed: int, total: int)
    ensures total > 0 ==> (RoundDigits(elapsed as real / total as real, 3) >= 1.0 <==> 2000 * elapsed >= 1999 * total)
  {
    if total > 0 {
      AutoStopThreshold(elapsed, total);
    }
  }

  lemma ScaledProgress(elapsed: int, total: int)
    requires total > 0
    ensures (elapsed as real / total as real) * 1000.0 >= 999.5 <==> 2000 * elapsed >= 1999 * total
  {
    var t := total as real;
    var e := elapsed as real;
    assert (e / t) * 1000.0 * t == e * 1000.0;
  }

  /**
   Evaluated only while the run bit is set, the timer stops the motor at most
   once per evaluation and exactly when the threshold is crossed.
   */
  lemma {:induction false} TimerStopsAtThreshold(a: App, start: int, stop: int, total: int, now: int)
    requires a.inverter.Some? && total > 0
    ensures MillPeriod(a, start, stop, total, now).writes != [] <==> 2000 * (now - start) >= 1999 * total
  {
    AutoStopThreshold(now - start, total);
  }

  /**
   Because of the rounding, a two hour run is stopped 3 s before its stop
   time: at 7197 s the progress 0.99958 already rounds to 1.
   */
  lemma TwoHourRunStopsEarly(a: App, start: int)
    requires a.inverter.Some?
    ensures MillPeriod(a, start, start + 7200, 7200, start + 7196).writes == []
    ensures MillPeriod(a, start, start + 7200, 7200, start + 7197).writes == [Write(OperationAddress, StopCode(a.direction))]
  {
    TimerStopsAtThreshold(a, start, start + 7200, 7200, start + 7196);
    TimerStopsAtThreshold(a, start, start + 7200, 7200, start + 7197);
  }

  /** Half an hour into a two hour run: progress 0.25, 1800 s shown elapsed and 5401 s remaining. */
  lemma HalfHourIntoTwoHours(a: App, start: int)
    requires a.inverter.Some?
    ensures MillPeriod(a, start, start + 7200, 7200, start + 1800)
         == Step(a.(progress := 0.25, shownElapsed := Some(1800), shownRemaining := Some(5401)), [])
  {
    assert 1800 as real / 7200 as real == 25 as real / Pow10(2) as real;
    RoundDigitsOnGrid(25, 2);
    assert 25 as real / Pow10(2) as real == 250 as real / Pow10(3) as real;
    RoundDigitsOnGrid(250, 3);
  }

  /** While the motor runs after `Run`, none of the locked edits has any effect. */
  lemma RunLocksEditing(a: App, now: int, hours: int, minutes: int, d: Direction, g: Geometry)
    requires a.inverter.Some?
    ensures var b := Run(a, now).app;
      && EditDuration(b, hours, minutes) == b
      && EditDirection(b, d) == b
      && ToggleDiameterEditing(b) == b
      && EditGeometry(b, g) == b
  {
  }

  /** After `Stop` the duration and direction can be edited again. */
  lemma StopReleasesEditing(a: App, hours: int, minutes: int, d: Direction)
    requires a.inverter.Some?
    ensures var b := Stop(a).app;
      && EditDuration(b, hours, minutes).hours == hours
      && EditDirection(b, d).direction == d
      && ToggleDiameterEditing(b).diameterEditing != b.diameterEditing
  {
  }

  /**
   A pause/restart cycle, with the timer evaluated at t1 before the pause,
   adds one second to the interval between start and stop, because the
   remaining time is shown one second longer than it is.
   */
  lemma {:induction false} PauseRestartAddsASecond(a: App, t1: int, t2: int, t3: int)
    requires a.inverter.Some? && a.pauseLabel == ShowsPause
    requires a.startTime.Some? && a.stopTime.Some? && a.totalTime.Some? && a.totalTime.value > 0
    requires 2000 * (t1 - a.startTime.value) < 1999 * a.totalTime.value
    ensures var timed := MillPeriod(a, a.startTime.value, a.stopTime.value, a.totalTime.value, t1);
            var paused := Pause(timed.app, t2);
            var restarted := Pause(paused.app, t3);
      && timed.writes == []
      && paused.writes == [Write(OperationAddress, StopCode(a.direction))]
      && restarted.writes == [Write(OperationAddress, RunCode(a.direction))]
      && restarted.app.pauseLabel == ShowsPause
      && restarted.app.totalTime == a.totalTime
      && restarted.app.stopTime.value - restarted.app.startTime.value
         == a.stopTime.value - a.startTime.value + 1
  {
    AutoStopThreshold(t1 - a.startTime.value, a.totalTime.value);
  }

  /**
   Neither `Run` nor `Stop` resets the pause button's label: after a pause
   and a stop, a new run's first pause click takes the RESTART branch and
   sends the run code again instead of stopping the motor.
   */
  lemma StaleRestartLabel(a: App, t1: int, t2: int, t3: int)
    requires a.inverter.Some? && a.pauseLabel == ShowsPause
    ensures var paused := Pause(a, t1).app;
            var rerun := Run(Stop(paused).app, t2).app;
      && rerun.pauseLabel == ShowsRestart
      && Pause(rerun, t3).writes != [Write(OperationAddress, StopCode(a.direction))]
  {
  }

  /** Without an inverter every command is inert: the state is unchanged and nothing is written. */
  lemma DisconnectedIsInert(a: App, now: int, read: StatusRead)
    requires a.inverter.None? && WellFormed(read)
    ensures Run(a, now) == Stop(a) == Pause(a, now) == Sample(a, read, now) == Step(a, [])
  {
  }

  /**
   Connecting to the example motor with the default diameters writes 23.9 Hz
   (2390 in hundredths) and then the forward stop code.
   */
  lemma ConnectWithDefaults()
    ensures Connect(Initial(), ExampleNameplate).writes
         == [Write(FrequencyAddress, 2390), Write(OperationAddress, 0)]
    ensures Connect(Initial(), ExampleNameplate).app.speeds == Speeds(74, 359, 23.9)
  {
    WorkedExample();
  }
}

=== FILE: conversion.dfy ===
/**
 The speed conversion engine of `BallMillControl`: vessel rpm, shaft rpm and
 drive frequency are three views of one speed, linked by the diameter ratio
 of the mill and by the synchronous speed of the motor,
 maxrpm = round(120 * rated frequency / poles).
 */
module Conversion {
  import opened Results
  import opened Rounding
  import opened Registers

  /** Mill vessel and drive shaft diameters in millimetres. */
  datatype Geometry = Geometry(millDiameter: real, shaftDiameter: real)

  /** The diameters the application starts with. */
  const DefaultGeometry: Geometry := Geometry(220.0, 45.4)

  /** The three displayed speeds. */
  datatype Speeds = Speeds(vessel: int, shaft: int, frequency: real)

  /** What the source raises inside a conversion; its handler turns it into a message. */
  datatype ConversionError = DivisionByZero | NoSuchMode(mode: int)

  // Control modes as the radio buttons number them.
  const VesselMode: int := 1
  const ShaftMode: int := 2
  const FrequencyMode: int := 3

  /** Synchronous speed of the motor, `round(120 * (f / poles))`; zero poles raise. */
  function MaxRpm(rated: real, poles: int): (r: Result<int, ConversionError>)
    ensures r.Err? <==> poles == 0
    ensures r.Ok? ==> RoundsTo(120.0 * (rated / poles as real), r.value)
  {
    if poles == 0 then Err(DivisionByZero) else Ok(Round(120.0 * (rated / poles as real)))
  }

  /** `round(vessel_rpm * (mill_dia / shaft_dia))` */
  function ShaftFromVessel(vessel: int, g: Geometry): (shaft: int)
    requires g.shaftDiameter != 0.0
    ensures RoundsTo(vessel as real * (g.millDiameter / g.shaftDiameter), shaft)
  {
    Round(vessel as real * (g.millDiameter / g.shaftDiameter))
  }

  /** `round(shaft_rpm * (shaft_dia / mill_dia))` */
  function VesselFromShaft(shaft: int, g: Geometry): (vessel: int)
    requires g.millDiameter != 0.0
    ensures RoundsTo(shaft as real * (g.shaftDiameter / g.millDiameter), vessel)
  {
    Round(shaft as real * (g.shaftDiameter / g.millDiameter))
  }

  /** `round((shaft_rpm / motor_maxrpm) * vfd_maxfreq, ndigits=1)` */
  function FrequencyFromShaft(shaft: int, maxRpm: int, rated: real): (hz: real)
    requires maxRpm != 0
    ensures TenthsNearest(hz, (shaft as real / maxRpm as real) * rated)
  {
    RoundTenthsBound((shaft as real / maxRpm as real) * rated);
    assert Pow10(1) == 10;
    RoundDigits((shaft as real / maxRpm as real) * rated, 1)
  }

  /**
   hz is x rounded to one decimal: a whole number of tenths, the tenth
   nearest to x (ties to the even tenth), so within 0.05 of x.
   */
  // The Within conjunct follows from the other two; it is stated as well so that proofs need not derive it.
  ghost predicate TenthsNearest(hz: real, x: real)
  {
    Within(hz, x, 0.05) && OnGrid(hz, 10.0) && NearestOnGrid(x, hz, 10.0)
  }

  /** `round(motor_maxrpm * (vfd_freq / vfd_maxfreq))` */
  function ShaftFromFrequency(hz: real, maxRpm: int, rated: real): (shaft: int)
    requires rated != 0.0
    ensures RoundsTo(maxRpm as real * (hz / rated), shaft)
  {
    Round(maxRpm as real * (hz / rated))
  }

  /** The speeds after a recompute pass, and the error that cut it short, if any. */
  datatype Recomputed = Recomputed(speeds: Speeds, error: Option<ConversionError>)

  /** `round(x, 1)` lies within five hundredths of x. */
  lemma RoundTenthsBound(x: real)
    ensures Within(RoundDigits(x, 1), x, 0.05)
  {
    assert Pow10(1) == 10;
  }

  /** Mode 1: the vessel rpm is given; shaft rpm, then frequency, follow from it. */
  function VesselPass(maxRpm: int, rated: real, g: Geometry, sp: Speeds): (r: Recomputed)
    ensures r.speeds.vessel == sp.vessel
    ensures r.error.None? <==> g.shaftDiameter != 0.0 && maxRpm != 0
    ensures g.shaftDiameter == 0.0 ==> r == Recomputed(sp, Some(DivisionByZero))
    ensures g.shaftDiameter != 0.0 ==>
      RoundsTo(sp.vessel as real * (g.millDiameter / g.shaftDiameter), r.speeds.shaft)
    ensures r.error.None? ==> TenthsNearest(r.speeds.frequency, (r.speeds.shaft as real / maxRpm as real) * rated)
    ensures g.shaftDiameter != 0.0 && maxRpm == 0 ==>
      r.speeds.frequency == sp.frequency && r.error == Some(DivisionByZero)
  {
    if g.shaftDiameter == 0.0 then Recomputed(sp, Some(DivisionByZero))
    else
      var shaft := ShaftFromVessel(sp.vessel, g);
      if maxRpm == 0 then Recomputed(sp.(shaft := shaft), Some(DivisionByZero))
      else
        Recomputed(sp.(shaft := shaft, frequency := FrequencyFromShaft(shaft, maxRpm, rated)), None)
  }

  /** Mode 2: the shaft rpm is given; vessel rpm and frequency follow from it. */
  function ShaftPass(maxRpm: int, rated: real, g: Geometry, sp: Speeds): (r: Recomputed)
    ensures r.speeds.shaft == sp.shaft
    ensures r.error.None? <==> g.millDiameter != 0.0 && maxRpm != 0
    ensures g.millDiameter == 0.0 ==> r == Recomputed(sp, Some(DivisionByZero))
    ensures g.millDiameter != 0.0 ==>
      RoundsTo(sp.shaft as real * (g.shaftDiameter / g.millDiameter), r.speeds.vessel)
    ensures r.error.None? ==> TenthsNearest(r.speeds.frequency, (sp.shaft as real / maxRpm as real) * rated)
    ensures g.millDiameter != 0.0 && maxRpm == 0 ==>
      r.speeds.frequency == sp.frequency && r.error == Some(DivisionByZero)
  {
    if g.millDiameter == 0.0 then Recomputed(sp, Some(DivisionByZero))
    else
      var vessel := VesselFromShaft(sp.shaft, g);
      if maxRpm == 0 then Recomputed(sp.(vessel := vessel), Some(DivisionByZero))
      else
        Recomputed(sp.(vessel := vessel, frequency := FrequencyFromShaft(sp.shaft, maxRpm, rated)), None)
  }

  /** Mode 3: the frequency is given; shaft rpm, then vessel rpm, follow from it. */
  function FrequencyPass(maxRpm: int, rated: real, g: Geometry, sp: Speeds): (r: Recomputed)
    ensures r.speeds.frequency == sp.frequency
    ensures r.error.None? <==> rated != 0.0 && g.millDiameter != 0.0
    ensures rated == 0.0 ==> r == Recomputed(sp, Some(DivisionByZero))
    ensures rated != 0.0 ==>
      RoundsTo(maxRpm as real * (sp.frequency / rated), r.speeds.shaft)
    ensures r.error.None? ==>
      RoundsTo(r.speeds.shaft as real * (g.shaftDiameter / g.millDiameter), r.speeds.vessel)
    ensures rated != 0.0 && g.millDiameter == 0.0 ==>
      r.speeds.vessel == sp.vessel && r.error == Some(DivisionByZero)
  {
    if rated == 0.0 then Recomputed(sp, Some(DivisionByZero))
    else
      var shaft := ShaftFromFrequency(sp.frequency, maxRpm, rated);
      if g.millDiameter == 0.0 then Recomputed(sp.(shaft := shaft), Some(DivisionByZero))
      else Recomputed(sp.(shaft := shaft, vessel := VesselFromShaft(shaft, g)), None)
  }

  /**
   The three-way dispatch of `set_drive_frequency`: the speed the mode names
   is kept and the other two are derived from it. A division by zero stops
   the pass where Python raises, so assignments made before it stay.
   */
  function Recompute(np: Nameplate, g: Geometry, mode: int, sp: Speeds): (r: Recomputed)
    ensures np.poles == 0 ==> r == Recomputed(sp, Some(DivisionByZero))
    ensures np.poles != 0 && mode !in {VesselMode, ShaftMode, FrequencyMode} ==> r == Recomputed(sp, Some(NoSuchMode(mode)))
    ensures np.poles != 0 && mode == VesselMode ==> r == VesselPass(MaxRpm(np.frequency, np.poles).value, np.frequency, g, sp)
    ensures np.poles != 0 && mode == ShaftMode ==> r == ShaftPass(MaxRpm(np.frequency, np.poles).value, np.frequency, g, sp)
    ensures np.poles != 0 && mode == FrequencyMode ==> r == FrequencyPass(MaxRpm(np.frequency, np.poles).value, np.frequency, g, sp)
  {
    match MaxRpm(np.frequency, np.poles)
    case Err(e) => Recomputed(sp, Some(e))
    case Ok(maxRpm) =>
      if mode == VesselMode then VesselPass(maxRpm, np.frequency, g, sp)
      else if mode == ShaftMode then ShaftPass(maxRpm, np.frequency, g, sp)
      else if mode == FrequencyMode then FrequencyPass(maxRpm, np.frequency, g, sp)
      else Recomputed(sp, Some(NoSuchMode(mode)))
  }

  /** What the message line reports after `set_drive_frequency`. */
  datatype Notice =
    | Silent                            // no inverter: nothing happens
    | FrequencySet(hz: real)            // the write went out
    | FrequencyOutOfRange(max: real)    // outside [0, rated]: no write
    | ConversionFailed(error: ConversionError)
    | WriteRefused(refusal: DriverError)

  datatype Applied = Applied(speeds: Speeds, writes: seq<Write>, notice: Notice)

  /**
   `set_drive_frequency`: recompute, then write the frequency when it lies in
   [0, rated frequency], both ends included.
   */
  function SetDriveFrequency(connected: bool, np: Nameplate, g: Geometry, mode: int, sp: Speeds): (r: Applied)
    ensures !connected ==> r == Applied(sp, [], Silent)
    ensures |r.writes| <= 1
    ensures r.writes != [] <==>
      && connected && Recompute(np, g, mode, sp).error.None?
      && 0.0 <= r.speeds.frequency <= np.frequency && r.speeds.frequency < 655.36
    ensures r.writes != [] ==>
      && r.writes[0].address == FrequencyAddress
      && r.speeds.frequency - 0.01 < Hundredths(r.writes[0].value) <= r.speeds.frequency
      && r.notice == FrequencySet(r.speeds.frequency)
    ensures r.notice.FrequencyOutOfRange? <==>
      connected && Recompute(np, g, mode, sp).error.None? && !(0.0 <= r.speeds.frequency <= np.frequency)
    ensures connected ==> r.speeds == Recompute(np, g, mode, sp).speeds
    ensures connected && Recompute(np, g, mode, sp).error.Some? ==>
      r == Applied(Recompute(np, g, mode, sp).speeds, [], ConversionFailed(Recompute(np, g, mode, sp).error.value))
    ensures r.notice.WriteRefused? <==>
      && connected && Recompute(np, g, mode, sp).error.None?
      && 655.36 <= r.speeds.frequency <= np.frequency
    ensures r.notice.WriteRefused? ==> r.writes == [] && r.notice == WriteRefused(NotEncodable(r.speeds.frequency))
  {
    if !connected then Applied(sp, [], Silent)
    else
      var rc := Recompute(np, g, mode, sp);
      if rc.error.Some? then Applied(rc.speeds, [], ConversionFailed(rc.error.value))
      else
        var hz := rc.speeds.frequency;
        if 0.0 <= hz <= np.frequency then
          match SetFrequency(hz)
          case Ok(w) => Applied(rc.speeds, [w], FrequencySet(hz))
          case Err(e) => Applied(rc.speeds, [], WriteRefused(e))
        else Applied(rc.speeds, [], FrequencyOutOfRange(np.frequency))
  }

  /** Upper bounds of the three speed controls, set by `read_motor_info`. */
  datatype Limits = Limits(maxFrequency: real, maxShaft: int, maxVessel: int)

  function MotorLimits(np: Nameplate, g: Geometry): (r: Result<Limits, ConversionError>)
    ensures r.Err? <==> np.poles == 0 || g.millDiameter == 0.0
    ensures r.Ok? ==> r.value.maxFrequency == np.frequency && Ok(r.value.maxShaft) == MaxRpm(np.frequency, np.poles)
    ensures r.Ok? ==> RoundsTo(r.value.maxShaft as real * (g.shaftDiameter / g.millDiameter), r.value.maxVessel)
  {
    match MaxRpm(np.frequency, np.poles)
    case Err(e) => Err(e)
    case Ok(maxRpm) =>
      if g.millDiameter == 0.0 then Err(DivisionByZero)
      else Ok(Limits(np.frequency, maxRpm, VesselFromShaft(maxRpm, g)))
  }

  /** The live readout `sample_data` derives from the output frequency. */
  datatype Readout = Readout(millRpm: int, motorRpm: int, driveFrequency: real)

  /**
   `sample_data`: motor rpm is `int(120 * (f / poles))`, truncated, and the
   vessel rpm is rounded from it.
   */
  function SampleReadout(outputFrequency: real, poles: int, g: Geometry): (r: Result<Readout, ConversionError>)
    ensures r.Err? <==> poles == 0 || g.millDiameter == 0.0
    ensures r.Ok? && outputFrequency >= 0.0 && poles > 0 ==>
      && 0 <= r.value.motorRpm
      && r.value.motorRpm as real <= 120.0 * (outputFrequency / poles as real) < r.value.motorRpm as real + 1.0
    ensures r.Ok? ==> RoundsTo(r.value.motorRpm as real * (g.shaftDiameter / g.millDiameter), r.value.millRpm)
    ensures r.Ok? ==> r.value.driveFrequency == outputFrequency
  {
    if poles == 0 then Err(DivisionByZero)
    else
      var motorRpm := Trunc(120.0 * (outputFrequency / poles as real));
      if g.millDiameter == 0.0 then Err(DivisionByZero)
      else Ok(Readout(VesselFromShaft(motorRpm, g), motorRpm, outputFrequency))
  }

  // ---------------------------------------------------------------------------
  // Properties of the conversions.

  /** When the shaft is thinner than the vessel, vessel -> shaft -> vessel gives the vessel rpm back. */
  lemma {:induction false} VesselRoundTrip(vessel: int, g: Geometry)
    requires 0.0 < g.shaftDiameter < g.millDiameter
    ensures VesselFromShaft(ShaftFromVessel(vessel, g), g) == vessel
  {
    var ratio := g.millDiameter / g.shaftDiameter;
    var inverse := g.shaftDiameter / g.millDiameter;
    assert ratio * inverse == 1.0;
    RatioBelowOne(g.shaftDiameter, g.millDiameter);
    var shaft := ShaftFromVessel(vessel, g);
    var err := shaft as real - vessel as real * ratio;
    assert -0.5 <= err <= 0.5;
    var back := shaft as real * inverse;
    assert back - vessel as real == err * inverse;
    ShrinkHalf(err, inverse);
    var v' := VesselFromShaft(shaft, g);
    assert back - 0.5 <= v' as real <= back + 0.5;
    assert vessel as real - 1.0 < v' as real < vessel as real + 1.0;
  }

  lemma RatioBelowOne(a: real, b: real)
    requires 0.0 < a < b
    ensures 0.0 < a / b < 1.0
  {
    var q := a / b;
    assert q * b == a;
    if q >= 1.0 {
      MultiplyAtLeast(q, b);
    }
  }

  lemma MultiplyAtLeast(q: real, b: real)
    requires q >= 1.0 && b > 0.0
    ensures q * b >= b
  {
    assert q * b == b + (q - 1.0) * b;
  }

  /** A rounding error of at most one half, scaled by a factor below one, stays below one half. */
  lemma ShrinkHalf(e: real, k: real)
    requires -0.5 <= e <= 0.5 && 0.0 < k < 1.0
    ensures -0.5 < e * k < 0.5
  {
    if e >= 0.0 {
      assert e * k <= 0.5 * k;
    } else {
      assert e * k >= -0.5 * k;
    }
  }

  /** Scaling two values by the same positive factor scales their distance by it. */
  lemma ScaleWithin(a: real, b: real, eps: real, k: real)
    requires Within(a, b, eps) && k > 0.0
    ensures Within(a * k, b * k, eps * k)
  {
    assert b * k - a * k == (b - a) * k;
    if b >= a {
      assert (b - a) * k <= eps * k;
    } else {
      assert (a - b) * k <= eps * k;
    }
  }

  /**
   shaft -> frequency -> shaft comes back within 1/2 + maxrpm/(20 * rated)
   rpm: the frequency keeps one decimal, and a tenth of a hertz is worth
   maxrpm/(10 * rated) rpm.
   */
  lemma {:induction false} ShaftRoundTripBound(shaft: int, maxRpm: int, rated: real)
    requires maxRpm > 0 && rated > 0.0
    ensures Within(ShaftFromFrequency(FrequencyFromShaft(shaft, maxRpm, rated), maxRpm, rated) as real,
                   shaft as real, 0.5 + maxRpm as real / (20.0 * rated))
  {
    BackToShaft(FrequencyFromShaft(shaft, maxRpm, rated), shaft, maxRpm, rated);
  }

  /** Any frequency within 0.05 Hz of the exact one converts back to within 1/2 + maxrpm/(20 * rated) rpm. */
  lemma BackToShaft(hz: real, shaft: int, maxRpm: int, rated: real)
    requires maxRpm > 0 && rated > 0.0
    requires Within(hz, (shaft as real / maxRpm as real) * rated, 0.05)
    ensures Within(ShaftFromFrequency(hz, maxRpm, rated) as real, shaft as real, 0.5 + maxRpm as real / (20.0 * rated))
  {
    var mid := maxRpm as real * (hz / rated);
    TenthBackToRpm(hz, shaft as real, maxRpm as real, rated);
    WithinTriangle(ShaftFromFrequency(hz, maxRpm, rated) as real, mid, shaft as real,
                   0.5, maxRpm as real / (20.0 * rated));
  }

  lemma TenthBackToRpm(hz: real, s: real, m: real, rated: real)
    requires m > 0.0 && rated > 0.0
    requires Within(hz, (s / m) * rated, 0.05)
    ensures Within(m * (hz / rated), s, m / (20.0 * rated))
  {
    var k := m / rated;
    ScaleWithin(hz, (s / m) * rated, 0.05, k);
    RateIdentities(s, hz, m, rated);
  }

  /** The rpm-per-hertz factor maxrpm/rated undoes the hertz-per-rpm factor. */
  lemma RateIdentities(s: real, hz: real, m: real, rated: real)
    requires m > 0.0 && rated > 0.0
    ensures ((s / m) * rated) * (m / rated) == s
    ensures hz * (m / rated) == m * (hz / rated)
    ensures 0.05 * (m / rated) == m / (20.0 * rated)
  {
  }

  /** For the 50 Hz, 8-pole motor (maxrpm 750) the shaft round trip is exact to one rpm. */
  lemma EightPoleShaftRoundTrip(shaft: int)
    ensures Within(ShaftFromFrequency(FrequencyFromShaft(shaft, 750, 50.0), 750, 50.0) as real, shaft as real, 1.0)
  {
    ShaftRoundTripBound(shaft, 750, 50.0);
    assert 750.0 / (20.0 * 50.0) == 0.75;
    IntegersWithinOne(ShaftFromFrequency(FrequencyFromShaft(shaft, 750, 50.0), 750, 50.0), shaft, 1.25);
  }

  /** Integers closer than two are at most one apart. */
  lemma IntegersWithinOne(a: int, b: int, eps: real)
    requires Within(a as real, b as real, eps) && eps < 2.0
    ensures Within(a as real, b as real, 1.0)
  {
    var d := b - a;
    assert b as real - a as real == d as real;
    assert -2.0 < d as real < 2.0;
    assert -1 <= d <= 1;
  }

  /**
   For a 50 Hz, 2-pole motor (maxrpm 3000) the round trip is not within one
   rpm: 2 rpm is 1/30 Hz, which rounds to 0.0 Hz, i.e. 0 rpm.
   */
  lemma TwoPoleShaftRoundTripDrifts()
    ensures MaxRpm(50.0, 2) == Ok(3000)
    ensures FrequencyFromShaft(2, 3000, 50.0) == 0.0
    ensures ShaftFromFrequency(FrequencyFromShaft(2, 3000, 50.0), 3000, 50.0) == 0
  {
    RoundOfInt(3000);
    assert (2.0 / 3000.0) * 50.0 == 1.0 / 30.0;
    RoundToGridUnfold(1.0 / 30.0, 10.0);
    assert Pow10(1) == 10;
    RoundUnique((1.0 / 30.0) * 10.0, 0);
    RoundOfInt(0);
  }

  /**
   The limits `read_motor_info` installs agree with the conversions: the
   shaft limit converts to exactly the rated frequency and back.
   */
  lemma {:induction false} LimitsConsistent(np: Nameplate, g: Geometry)
    requires np.poles > 0 && np.frequency > 0.0 && g.millDiameter != 0.0
    requires FromTenths(np.frequency).Some?
    requires MaxRpm(np.frequency, np.poles).value != 0
    ensures MotorLimits(np, g).Ok?
    ensures var lim := MotorLimits(np, g).value;
      && FrequencyFromShaft(lim.maxShaft, lim.maxShaft, np.frequency) == lim.maxFrequency
      && ShaftFromFrequency(lim.maxFrequency, lim.maxShaft, np.frequency) == lim.maxShaft
  {
    var m := MaxRpm(np.frequency, np.poles).value;
    FullShaftIsRated(m, FromTenths(np.frequency).value);
    SelfRatio(np.frequency);
    RoundOfInt(m);
  }

  /** The synchronous speed converts to exactly a rated frequency that is a whole number of tenths. */
  lemma FullShaftIsRated(m: int, k: int)
    requires m != 0
    ensures FrequencyFromShaft(m, m, k as real / 10.0) == k as real / 10.0
  {
    SelfRatio(m as real);
    assert (m as real / m as real) * (k as real / 10.0) == k as real / 10.0;
    assert Pow10(1) == 10;
    RoundDigitsOnGrid(k, 1);
  }

  lemma SelfRatio(x: real)
    requires x != 0.0
    ensures x / x == 1.0
  {
  }

  /**
   Switching from vessel control to shaft control changes nothing: the
   speeds mode 1 produces are a fixed point of mode 2.
   */
  lemma ModeSwitchFixpoint(np: Nameplate, g: Geometry, sp: Speeds)
    requires np.poles != 0 && MaxRpm(np.frequency, np.poles).value != 0
    requires 0.0 < g.shaftDiameter < g.millDiameter
    ensures Recompute(np, g, VesselMode, sp).error.None?
    ensures var first := Recompute(np, g, VesselMode, sp).speeds;
      Recompute(np, g, ShaftMode, first) == Recomputed(first, None)
  {
    VesselRoundTrip(sp.vessel, g);
  }

  /** A motor with a 50 Hz, 8-pole nameplate. */
  const ExampleNameplate: Nameplate := Nameplate(220.0, 1.5, 50.0, 8, 0.4, 720)

  /**
   The defaults: 220 mm vessel, 45.4 mm shaft, vessel set to 74 rpm on a
   50 Hz, 8-pole motor give maxrpm 750, shaft round(358.59) = 359 rpm and
   round(23.93, 1) = 23.9 Hz, written as 2390.
   */
  lemma WorkedExample()
    ensures MaxRpm(50.0, 8) == Ok(750)
    ensures SetDriveFrequency(true, ExampleNameplate, DefaultGeometry, VesselMode, Speeds(74, 0, 0.0))
         == Applied(Speeds(74, 359, 23.9), [Write(FrequencyAddress, 2390)], FrequencySet(23.9))
  {
    RoundOfInt(750);
    var exactShaft := 74.0 * (220.0 / 45.4);
    assert 358.5 < exactShaft < 359.0;
    RoundUnique(exactShaft, 359);
    var exactHz := (359.0 / 750.0) * 50.0;
    assert exactHz * 10.0 == 7180.0 / 30.0;
    RoundUnique(exactHz * 10.0, 239);
    RoundToGridUnfold(exactHz, 10.0);
    assert Pow10(1) == 10;
    assert FrequencyFromShaft(359, 750, 50.0) == 23.9;
    assert Trunc(23.9 * 100.0) == 2390;
  }

  /**
   The readout truncates where the set-point conversion rounds: at 23.93 Hz
   output the readout shows 358 rpm while the frequency converts to 359 rpm.
   */
  lemma ReadoutTruncates()
    ensures SampleReadout(23.93, 8, DefaultGeometry).Ok?
    ensures SampleReadout(23.93, 8, DefaultGeometry).value.motorRpm == 358
    ensures ShaftFromFrequency(23.93, 750, 50.0) == 359
  {
    assert 120.0 * (23.93 / 8.0) == 358.95;
    assert 750.0 * (23.93 / 50.0) == 358.95;
    RoundUnique(358.95, 359);
  }

  /** On any non-negative output frequency the readout lags the rounded value by at most one rpm. */
  lemma ReadoutWithinOneOfRounded(outputFrequency: real, poles: int, g: Geometry)
    requires outputFrequency >= 0.0 && poles > 0 && g.millDiameter != 0.0
    ensures var exact := 120.0 * (outputFrequency / poles as real);
      Round(exact) - 1 <= SampleReadout(outputFrequency, poles, g).value.motorRpm <= Round(exact)
  {
    TruncBelowRound(120.0 * (outputFrequency / poles as real));
  }
}

=== FILE: discovery.dfy ===
/**
 Serial port discovery (`get_com_ports` and `find_inverter`): drop the ports
 whose manufacturer is "Intel", sort the device names in ascending order,
 and try them in that order. What happens at each port (it answers, it
 stays silent, or it cannot be opened) is the parameter `probe`.
 */
module Discovery {
  import opened Results

  /** A port as the serial library lists it; the manufacturer may be unknown. */
  datatype Port = Port(device: string, manufacturer: Option<string>)

  /** Python's string order: code point by code point, a proper prefix first. */
  predicate LessEq(a: string, b: string)
  {
    |a| == 0 || (|b| > 0 && (a[0] < b[0] || (a[0] == b[0] && LessEq(a[1..], b[1..]))))
  }

  lemma {:induction false} LessEqReflexive(a: string)
    ensures LessEq(a, a)
  {
    if |a| > 0 {
      LessEqReflexive(a[1..]);
    }
  }

  lemma {:induction false} LessEqTotal(a: string, b: string)
    ensures LessEq(a, b) || LessEq(b, a)
  {
    if |a| > 0 && |b| > 0 && a[0] == b[0] {
      LessEqTotal(a[1..], b[1..]);
    }
  }

  lemma {:induction false} LessEqAntisymmetric(a: string, b: string)
    requires LessEq(a, b) && LessEq(b, a)
    ensures a == b
  {
    if |a| > 0 && |b| > 0 {
      LessEqAntisymmetric(a[1..], b[1..]);
      assert a == [a[0]] + a[1..] && b == [b[0]] + b[1..];
    }
  }

  lemma {:induction false} LessEqTransitive(a: string, b: string, c: string)
    requires LessEq(a, b) && LessEq(b, c)
    ensures LessEq(a, c)
  {
    if |a| > 0 && a[0] == b[0] && b[0] == c[0] {
      LessEqTransitive(a[1..], b[1..], c[1..]);
    }
  }

  predicate Sorted(s: seq<string>)
  {
    forall i, j :: 0 <= i < j < |s| ==> LessEq(s[i], s[j])
  }

  /** The device names of the ports not made by Intel, in listing order. */
  function Candidates(ports: seq<Port>): (devices: seq<string>)
    ensures |devices| <= |ports|
    ensures forall d :: d in devices <==> exists p :: p in ports && p.manufacturer != Some("Intel") && p.device == d
  {
    if |ports| == 0 then []
    else
      var rest := Candidates(ports[1..]);
      assert forall p :: p in ports[1..] ==> p in ports;
      assert forall p :: p in ports ==> p == ports[0] || p in ports[1..];
      if ports[0].manufacturer != Some("Intel") then [ports[0].device] + rest else rest
  }

  function Insert(x: string, s: seq<string>): (r: seq<string>)
    requires Sorted(s)
    ensures Sorted(r) && multiset(r) == multiset(s) + multiset{x}
  {
    if |s| == 0 then [x]
    else if LessEq(x, s[0]) then
      forall j | 0 <= j < |s|
        ensures LessEq(x, s[j])
      {
        if j > 0 { LessEqTransitive(x, s[0], s[j]); }
      }
      [x] + s
    else
      var tail := Insert(x, s[1..]);
      LessEqTotal(x, s[0]);
      forall j | 0 <= j < |tail|
        ensures LessEq(s[0], tail[j])
      {
        var y := tail[j];
        assert y in multiset(tail);
        if y != x {
          assert y in multiset(s[1..]);
          var k :| 0 <= k < |s[1..]| && s[1..][k] == y;
          assert s[k + 1] == y;
        }
      }
      assert s == [s[0]] + s[1..];
      [s[0]] + tail
  }

  /** `list.sort()`: an ascending permutation of the devices. */
  function Sort(s: seq<string>): (r: seq<string>)
    ensures Sorted(r) && multiset(r) == multiset(s)
  {
    if |s| == 0 then []
    else
      assert s == [s[0]] + s[1..];
      Insert(s[0], Sort(s[1..]))
  }

  /** `get_com_ports`: the sorted candidate devices. */
  function ComPorts(ports: seq<Port>): (devices: seq<string>)
    ensures Sorted(devices) && multiset(devices) == multiset(Candidates(ports))
  {
    Sort(Candidates(ports))
  }

  /**
   What happens at one port during `find_inverter`: the identity read
   answers, the read fails inside the `try` and the loop moves on, or opening
   the port raises before the `try` and ends the search.
   */
  datatype ProbeOutcome = Answers | NoAnswer | OpenFails

  /** The outcome of `find_inverter`. */
  datatype Discovered =
    | Found(device: string)        // the inverter answered here
    | NotFound                     // every port was tried and none answered
    | OpenFailed(device: string)   // opening this port raised and ended the search

  /** The loop of `find_inverter`: the first device where the search stops, if any. */
  function FirstDecisive(devices: seq<string>, probe: string -> ProbeOutcome): (r: Option<nat>)
    ensures r.Some? ==> r.value < |devices| && probe(devices[r.value]) != NoAnswer
    ensures r.Some? ==> forall j :: 0 <= j < r.value ==> probe(devices[j]) == NoAnswer
    ensures r.None? ==> forall j :: 0 <= j < |devices| ==> probe(devices[j]) == NoAnswer
  {
    if |devices| == 0 then None
    else if probe(devices[0]) != NoAnswer then Some(0)
    else match FirstDecisive(devices[1..], probe)
      case None => None
      case Some(i) => Some(i + 1)
  }

  /** `find_inverter`: which device the application connects to, or how the search ended. */
  function FindInverter(ports: seq<Port>, probe: string -> ProbeOutcome): (r: Discovered)
    ensures r.Found? ==> r.device in ComPorts(ports) && probe(r.device) == Answers
    ensures r.OpenFailed? ==> r.device in ComPorts(ports) && probe(r.device) == OpenFails
    ensures r.NotFound? <==> forall j :: 0 <= j < |ComPorts(ports)| ==> probe(ComPorts(ports)[j]) == NoAnswer
  {
    var devices := ComPorts(ports);
    match FirstDecisive(devices, probe)
    case None => NotFound
    case Some(i) => if probe(devices[i]) == Answers then Found(devices[i]) else OpenFailed(devices[i])
  }

  /**
   The search ends at the least non-Intel device, in string order, whose
   probe does not fall silent: it is chosen when it answers, and its open
   failure ends the search when it cannot be opened. Nothing is found
   exactly when every non-Intel device stays silent.
   */
  lemma {:induction false} FindInverterLeast(ports: seq<Port>, probe: string -> ProbeOutcome)
    ensures var r := FindInverter(ports, probe);
      && (r.Found? ==> r.device in Candidates(ports) && probe(r.device) == Answers)
      && (r.OpenFailed? ==> r.device in Candidates(ports) && probe(r.device) == OpenFails)
      && (!r.NotFound? ==> forall d :: d in Candidates(ports) && probe(d) != NoAnswer ==> LessEq(r.device, d))
      && (r.NotFound? <==> forall d :: d in Candidates(ports) ==> probe(d) == NoAnswer)
  {
    var devices := ComPorts(ports);
    var cands := Candidates(ports);
    SameMembers(cands, devices);
    match FirstDecisive(devices, probe)
    case None =>
    case Some(i) =>
      forall d | d in cands && probe(d) != NoAnswer
        ensures LessEq(devices[i], d)
      {
        var k :| 0 <= k < |devices| && devices[k] == d;
        if k == i {
          LessEqReflexive(d);
        }
      }
  }

  lemma SameMembers(a: seq<string>, b: seq<string>)
    requires multiset(a) == multiset(b)
    ensures forall d :: d in a <==> d in b
  {
    forall d
      ensures d in a <==> d in b
    {
      assert d in a <==> d in multiset(a);
      assert d in b <==> d in multiset(b);
    }
  }

  /** An Intel port is never tried, even if it is the only one that answers. */
  lemma IntelIgnored(probe: string -> ProbeOutcome)
    requires probe("COM1") == Answers
    ensures FindInverter([Port("COM1", Some("Intel"))], probe) == NotFound
  {
  }

  /** Of two devices, the one sorting first is tried first, regardless of listing order. */
  lemma {:induction false} SortedOrderWins(probe: string -> ProbeOutcome)
    requires probe("COM3") != NoAnswer
    ensures var r := FindInverter([Port("COM4", None), Port("COM3", Some("FTDI"))], probe);
      r == (if probe("COM3") == Answers then Found("COM3") else OpenFailed("COM3"))
  {
    assert !LessEq("COM4", "COM3") by {
      assert "COM4"[1..] == "OM4" && "COM3"[1..] == "OM3";
      assert "OM4"[1..] == "M4" && "OM3"[1..] == "M3";
      assert "M4"[1..] == "4" && "M3"[1..] == "3";
    }
  }

  /** A port that cannot be opened ends the search, even when a later port would answer. */
  lemma OpenFailureEndsSearch()
    ensures FindInverter([Port("COM3", None), Port("COM4", None)],
                         d => if d == "COM3" then OpenFails else Answers) == OpenFailed("COM3")
  {
    assert LessEq("COM3", "COM4") by {
      assert "COM3"[1..] == "OM3" && "COM4"[1..] == "OM4";
      assert "OM3"[1..] == "M3" && "OM4"[1..] == "M4";
      assert "M3"[1..] == "3" && "M4"[1..] == "4";
    }
  }
}

=== FILE: milltime.dfy ===
/**
 The milling-duration text of `set_mill_time`: hours and minutes joined by a
 colon, each formatted with `'{:02}'`, Python's sign-aware zero padding to
 width two. The parser below is the inverse used to state that the text
 determines the duration.
 */
module MillTime {
  import opened Results

  function DigitChar(d: int): (c: char)
    requires 0 <= d <= 9
    ensures '0' <= c <= '9' && c as int - '0' as int == d
  {
    ('0' as int + d) as char
  }

  /** The decimal digits of n, without leading zeros. */
  function Decimal(n: nat): (s: string)
    ensures AllDigits(s)
    ensures n < 10 <==> |s| == 1
    ensures n < 100 <==> |s| <= 2
  {
    if n < 10 then [DigitChar(n)] else Decimal(n / 10) + [DigitChar(n % 10)]
  }

  /**
   `'{:02}'.format(n)`: a non-negative number gets a leading zero below 10;
   a negative one already fills the width with its sign and is not padded.
   */
  function Pad2(n: int): (s: string)
    ensures |s| >= 1 && (n < 0 <==> s[0] == '-')
    ensures 0 <= n < 100 <==> |s| == 2 && s[0] != '-'
  {
    if n < 0 then "-" + Decimal(-n)
    else if n < 10 then "0" + Decimal(n)
    else Decimal(n)
  }

  /** The text shown as the milling duration. */
  function MillTimeText(hours: int, minutes: int): (s: string)
    ensures 0 <= hours < 100 && 0 <= minutes < 100 ==> |s| == 5 && s[2] == ':'
  {
    Pad2(hours) + ":" + Pad2(minutes)
  }

  predicate AllDigits(s: string)
  {
    forall i :: 0 <= i < |s| ==> '0' <= s[i] <= '9'
  }

  /** The value of a string of decimal digits, most significant first. */
  function DigitsValue(s: string): nat
    requires AllDigits(s)
  {
    if |s| == 0 then 0 else DigitsValue(s[..|s| - 1]) * 10 + (s[|s| - 1] as int - '0' as int)
  }

  /**
   Reads back an optionally negative decimal literal: the inverse of the
   formatting, used to state its round trip. It accepts only digits after an
   optional minus sign.
   */
  function ParseInt(s: string): (r: Option<int>)
    ensures r.Some? ==> |s| >= 1
  {
    if |s| >= 2 && s[0] == '-' && AllDigits(s[1..]) then Some(0 - DigitsValue(s[1..]) as int)
    else if |s| >= 1 && AllDigits(s) then Some(DigitsValue(s))
    else None
  }

  /** The position of the first colon, if any. */
  function FindColon(s: string): (r: Option<nat>)
    ensures r.Some? ==> r.value < |s| && s[r.value] == ':' && ':' !in s[..r.value]
    ensures r.None? ==> ':' !in s
  {
    if |s| == 0 then None
    else if s[0] == ':' then Some(0)
    else match FindColon(s[1..])
      case None => None
      case Some(i) => Some(i + 1)
  }

  /** Reads "hh:mm" back into hours and minutes. */
  function ParseMillTime(s: string): (r: Option<(int, int)>)
  {
    match FindColon(s)
    case None => None
    case Some(i) =>
      match (ParseInt(s[..i]), ParseInt(s[i + 1..]))
      case (Some(h), Some(m)) => Some((h, m))
      case _ => None
  }

  lemma {:induction false} DecimalRoundTrip(n: nat)
    ensures AllDigits(Decimal(n)) && DigitsValue(Decimal(n)) == n
  {
    if n >= 10 {
      DecimalRoundTrip(n / 10);
      var s := Decimal(n);
      assert s[..|s| - 1] == Decimal(n / 10);
    }
  }

  lemma Pad2RoundTrip(n: int)
    ensures ParseInt(Pad2(n)) == Some(n)
    ensures ':' !in Pad2(n)
  {
    DecimalRoundTrip(if n < 0 then -n else n);
    if n < 0 {
      assert Pad2(n)[1..] == Decimal(-n);
    } else if n < 10 {
      var s := Pad2(n);
      assert s == ['0', DigitChar(n)];
      assert s[..|s| - 1] == "0";
      assert DigitsValue("0") == 0;
    }
  }

  lemma ColonAfter(a: string, b: string)
    requires ':' !in a
    ensures FindColon(a + ":" + b) == Some(|a|)
  {
    if |a| > 0 {
      assert (a + ":" + b)[1..] == a[1..] + ":" + b;
      ColonAfter(a[1..], b);
    }
  }

  /** Every hour and minute value, in or out of the spinbox ranges, is recovered from its text. */
  lemma MillTimeRoundTrip(hours: int, minutes: int)
    ensures ParseMillTime(MillTimeText(hours, minutes)) == Some((hours, minutes))
  {
    var h := Pad2(hours);
    var m := Pad2(minutes);
    Pad2RoundTrip(hours);
    Pad2RoundTrip(minutes);
    ColonAfter(h, m);
    var s := h + ":" + m;
    assert s[..|h|] == h;
    assert s[|h| + 1..] == m;
  }

  /** The durations the spinboxes offer, 00:00 to 23:59, all have the fixed "hh:mm" shape. */
  lemma SpinboxTimesFixedWidth(hours: int, minutes: int)
    requires 0 <= hours <= 23 && 0 <= minutes <= 59
    ensures |MillTimeText(hours, minutes)| == 5
    ensures MillTimeText(hours, minutes)[0] <= '2'
  {
    if hours >= 10 {
      assert Decimal(hours) == Decimal(hours / 10) + [DigitChar(hours % 10)];
    }
  }

  lemma NegativeNotPadded()
    ensures MillTimeText(-5, 7) == "-5:07"
  {
  }
}

=== FILE: registers.dfy ===
/**
 Register codec of the TECO E510 inverter (`TECO_E510_Inverter` in
 teco_e510_inverter_app.py). Each holding-register read is an input block of
 16-bit words; each write the driver issues is a `Write` entry for the caller
 to append to its trace, so that "no write happened" is a statement about a
 sequence.
 */
module Registers {
  import opened Results
  import opened Rounding

  // Register map of the E510 (addresses as sent on the wire).
  const NameplateCount: nat := 9
  const StatusCount: nat := 7
  const OperationAddress: int := 0x2501
  const FrequencyAddress: int := 0x2502

  /** A 16-bit unsigned holding-register value. */
  predicate IsWord(v: int)
  {
    0 <= v < 0x1_0000
  }

  /** A block as the Modbus read returns it: the requested count of 16-bit words. */
  predicate IsBlock(raw: seq<int>, count: nat)
  {
    |raw| == count && forall i :: 0 <= i < |raw| ==> IsWord(raw[i])
  }

  /** One single-register write (Modbus function code 6). */
  datatype Write = Write(address: int, value: int)

  datatype DriverError =
    | InvalidOperation(mode: int)      // `set_operation` refuses a mode outside 0..3
    | NotEncodable(value: real)        // the value does not fit one 16-bit register

  /** A register value read with one implied decimal (`raw / 10`). */
  function Tenths(w: int): real
  {
    w as real / 10.0
  }

  /** A register value read with two implied decimals (`raw / 100`). */
  function Hundredths(w: int): real
  {
    w as real / 100.0
  }

  /** The register holding x with one implied decimal, if x is a tenth that fits. */
  function FromTenths(x: real): (r: Option<int>)
    ensures r.Some? ==> IsWord(r.value) && Tenths(r.value) == x
    ensures r.None? ==> forall w :: IsWord(w) ==> Tenths(w) != x
  {
    var w := (x * 10.0).Floor;
    if IsWord(w) && w as real == x * 10.0 then Some(w) else None
  }

  /** The register holding x with two implied decimals, if x is a hundredth that fits. */
  function FromHundredths(x: real): (r: Option<int>)
    ensures r.Some? ==> IsWord(r.value) && Hundredths(r.value) == x
    ensures r.None? ==> forall w :: IsWord(w) ==> Hundredths(w) != x
  {
    var w := (x * 100.0).Floor;
    if IsWord(w) && w as real == x * 100.0 then Some(w) else None
  }

  // ---------------------------------------------------------------------------
  // Motor nameplate block, 9 registers from 0x0200 (`get_motor_parameters`).

  datatype Nameplate = Nameplate(
    voltage: real,     // 02-04, tenths of a volt
    current: real,     // 02-01, tenths of an ampere
    frequency: real,   // 02-06, tenths of a hertz
    poles: int,        // 02-07, integer
    power: real,       // 02-05, tenths of a kilowatt
    speed: int         // 02-03, integer rpm
  )

  /** The nine registers read from 0x0200 on, in register order. */
  function DecodeNameplate(raw: seq<int>): (n: Nameplate)
    requires IsBlock(raw, NameplateCount)
    ensures n.voltage * 10.0 == raw[4] as real && n.current * 10.0 == raw[1] as real
    ensures n.frequency * 10.0 == raw[6] as real && n.power * 10.0 == raw[5] as real
    ensures n.poles == raw[7] && n.speed == raw[3]
    ensures 0.0 <= n.frequency && 0 <= n.poles
  {
    Nameplate(
      voltage := Tenths(raw[4]),
      current := Tenths(raw[1]),
      frequency := Tenths(raw[6]),
      poles := raw[7],
      power := Tenths(raw[5]),
      speed := raw[3])
  }

  /** Nameplates the block can carry: tenths and integers that fit a register. */
  predicate NameplateEncodable(n: Nameplate)
  {
    && FromTenths(n.voltage).Some? && FromTenths(n.current).Some?
    && FromTenths(n.frequency).Some? && FromTenths(n.power).Some?
    && IsWord(n.poles) && IsWord(n.speed)
  }

  /** The block a device holding nameplate n returns; unread registers are zero. */
  function EncodeNameplate(n: Nameplate): (raw: seq<int>)
    requires NameplateEncodable(n)
    ensures IsBlock(raw, NameplateCount)
  {
    [0, FromTenths(n.current).value, 0, n.speed, FromTenths(n.voltage).value,
     FromTenths(n.power).value, FromTenths(n.frequency).value, n.poles, 0]
  }

  lemma NameplateRoundTrip(n: Nameplate)
    requires NameplateEncodable(n)
    ensures DecodeNameplate(EncodeNameplate(n)) == n
  {
  }

  /** Decoding keeps every register the driver reads: re-encoding restores them. */
  lemma NameplateBlockRoundTrip(raw: seq<int>)
    requires IsBlock(raw, NameplateCount)
    ensures NameplateEncodable(DecodeNameplate(raw))
    ensures forall i :: i in {1, 3, 4, 5, 6, 7} ==> EncodeNameplate(DecodeNameplate(raw))[i] == raw[i]
  {
    var n := DecodeNameplate(raw);
    FromTenthsOfTenths(raw[4]);
    FromTenthsOfTenths(raw[1]);
    FromTenthsOfTenths(raw[6]);
    FromTenthsOfTenths(raw[5]);
  }

  lemma FromTenthsOfTenths(w: int)
    requires IsWord(w)
    ensures FromTenths(Tenths(w)) == Some(w)
  {
    assert Tenths(w) * 10.0 == w as real;
  }

  lemma FromHundredthsOfHundredths(w: int)
    requires IsWord(w)
    ensures FromHundredths(Hundredths(w)) == Some(w)
  {
    assert Hundredths(w) * 100.0 == w as real;
  }

  // ---------------------------------------------------------------------------
  // Status block, 7 registers from 0x2523, and status word 0x2520 (`get_status`).

  datatype Flags = Flags(operation: int, direction: int, ready: int, fault: int)

  datatype Snapshot = Snapshot(
    commandFrequency: real,  // 0x2523, hundredths of a hertz
    outputFrequency: real,   // 0x2524, hundredths of a hertz
    outputVoltage: real,     // 0x2525, tenths of a volt
    dcVoltage: int,          // 0x2526, integer
    outputCurrent: real,     // 0x2527, tenths of an ampere
    temperature: real,       // 0x2528, tenths of a degree
    torque: int,             // 0x2529, integer, read unsigned
    flags: Flags             // 0x2520
  )

  /** Python's `(w >> k) & 1` for a non-negative w: shift right k times, keep the low bit. */
  function Bit(w: nat, k: nat): (b: int)
    ensures b == 0 || b == 1
  {
    if k == 0 then w % 2 else Bit(w / 2, k - 1)
  }

  /** Bits 0..3 of the status word: run, reverse, ready, fault. */
  function DecodeFlags(w: int): (f: Flags)
    requires IsWord(w)
    ensures BitValued(f)
    ensures w % 16 == f.operation + 2 * f.direction + 4 * f.ready + 8 * f.fault
  {
    LowNibble(w);
    Flags(Bit(w, 0), Bit(w, 1), Bit(w, 2), Bit(w, 3))
  }

  /** The low four bits of w are its first four binary digits. */
  lemma LowNibble(w: nat)
    ensures w % 16 == Bit(w, 0) + 2 * Bit(w, 1) + 4 * Bit(w, 2) + 8 * Bit(w, 3)
  {
    BitsByHalving(w);
    NibbleByHalving(w);
  }

  /** Bit k is the parity of w halved k times. */
  lemma BitsByHalving(w: nat)
    ensures Bit(w, 0) == w % 2 && Bit(w, 1) == (w / 2) % 2
    ensures Bit(w, 2) == (w / 2 / 2) % 2 && Bit(w, 3) == (w / 2 / 2 / 2) % 2
  {
    var a := w / 2;
    var b := a / 2;
    assert Bit(w, 3) == Bit(a, 2) == Bit(b, 1);
  }

  lemma NibbleByHalving(w: nat)
    ensures w % 16 == w % 2 + 2 * ((w / 2) % 2) + 4 * ((w / 2 / 2) % 2) + 8 * ((w / 2 / 2 / 2) % 2)
  {
    HalveMod16(w);
    HalveMod8(w / 2);
    HalveMod4(w / 2 / 2);
  }

  /** Dropping the low bit and reducing modulo m is reducing modulo 2m, less the low bit. */
  lemma HalveMod16(x: nat)
    ensures x % 16 == 2 * ((x / 2) % 8) + x % 2
  {
    var a, low := x / 2, x % 2;
    assert x == 2 * a + low && 0 <= low < 2;
    var q, r := a / 8, a % 8;
    assert a == 8 * q + r && 0 <= r < 8;
    var q', r' := x / 16, x % 16;
    assert x == 16 * q' + r' && 0 <= r' < 16;
    assert 16 * (q - q') == r' - (2 * r + low);
    assert q == q';
  }

  lemma HalveMod8(x: nat)
    ensures x % 8 == 2 * ((x / 2) % 4) + x % 2
  {
    var a, low := x / 2, x % 2;
    assert x == 2 * a + low && 0 <= low < 2;
    var q, r := a / 4, a % 4;
    assert a == 4 * q + r && 0 <= r < 4;
    var q', r' := x / 8, x % 8;
    assert x == 8 * q' + r' && 0 <= r' < 8;
    assert 8 * (q - q') == r' - (2 * r + low);
    assert q == q';
  }

  lemma HalveMod4(x: nat)
    ensures x % 4 == 2 * ((x / 2) % 2) + x % 2
  {
    var a, low := x / 2, x % 2;
    assert x == 2 * a + low && 0 <= low < 2;
    var q, r := a / 2, a % 2;
    assert a == 2 * q + r && 0 <= r < 2;
    var q', r' := x / 4, x % 4;
    assert x == 4 * q' + r' && 0 <= r' < 4;
    assert 4 * (q - q') == r' - (2 * r + low);
    assert q == q';
  }

  /** Every flag is a single bit. */
  predicate BitValued(f: Flags)
  {
    && 0 <= f.operation <= 1 && 0 <= f.direction <= 1
    && 0 <= f.ready <= 1 && 0 <= f.fault <= 1
  }

  /** The status word a device reporting f returns, with every other bit clear. */
  function EncodeFlags(f: Flags): (w: int)
    requires BitValued(f)
    ensures IsWord(w) && w < 16
  {
    f.operation + 2 * f.direction + 4 * f.ready + 8 * f.fault
  }

  lemma FlagsRoundTrip(f: Flags)
    requires BitValued(f)
    ensures DecodeFlags(EncodeFlags(f)) == f
  {
    var w := EncodeFlags(f);
    var w1 := f.direction + 2 * f.ready + 4 * f.fault;
    var w2 := f.ready + 2 * f.fault;
    SplitLowBit(w, f.operation, w1);
    SplitLowBit(w1, f.direction, w2);
    SplitLowBit(w2, f.ready, f.fault);
    SplitLowBit(f.fault, f.fault, 0);
    BitsByHalving(w);
  }

  /** x = low + 2y with a bit `low` means x % 2 is low and x / 2 is y. */
  lemma SplitLowBit(x: int, low: int, y: int)
    requires 0 <= low <= 1 && x == low + 2 * y
    ensures x % 2 == low && x / 2 == y
  {
    var q, r := x / 2, x % 2;
    assert x == 2 * q + r && 0 <= r < 2;
    assert 2 * (q - y) == low - r;
  }

  /** Bits above the fourth do not reach the decoded flags. */
  lemma FlagsIgnoreHighBits(w: int)
    requires IsWord(w)
    ensures DecodeFlags(w) == DecodeFlags(w % 16)
  {
    var f, g := DecodeFlags(w), DecodeFlags(w % 16);
    assert (w % 16) % 16 == w % 16;
    NibbleDeterminesBits(f, g);
  }

  /** Two bit-valued flag records with the same weighted sum are equal. */
  lemma NibbleDeterminesBits(f: Flags, g: Flags)
    requires BitValued(f) && BitValued(g)
    requires f.operation + 2 * f.direction + 4 * f.ready + 8 * f.fault
          == g.operation + 2 * g.direction + 4 * g.ready + 8 * g.fault
    ensures f == g
  {
  }

  /** The seven registers read from 0x2523 on, with the flag word read from 0x2520. */
  function DecodeStatus(block: seq<int>, word: int): (s: Snapshot)
    requires IsBlock(block, StatusCount) && IsWord(word)
    ensures s.commandFrequency * 100.0 == block[0] as real
    ensures s.outputFrequency * 100.0 == block[1] as real
    ensures s.outputVoltage * 10.0 == block[2] as real
    ensures s.dcVoltage == block[3]
    ensures s.outputCurrent * 10.0 == block[4] as real
    ensures s.temperature * 10.0 == block[5] as real
    ensures s.torque == block[6]
    ensures s.flags == DecodeFlags(word)
    ensures 0.0 <= s.outputFrequency
  {
    Snapshot(
      commandFrequency := Hundredths(block[0]),
      outputFrequency := Hundredths(block[1]),
      outputVoltage := Tenths(block[2]),
      dcVoltage := block[3],
      outputCurrent := Tenths(block[4]),
      temperature := Tenths(block[5]),
      torque := block[6],
      flags := DecodeFlags(word))
  }

  predicate SnapshotEncodable(s: Snapshot)
  {
    && FromHundredths(s.commandFrequency).Some? && FromHundredths(s.outputFrequency).Some?
    && FromTenths(s.outputVoltage).Some? && IsWord(s.dcVoltage)
    && FromTenths(s.outputCurrent).Some? && FromTenths(s.temperature).Some?
    && IsWord(s.torque) && BitValued(s.flags)
  }

  /** The status block a device reporting s returns. */
  function EncodeStatus(s: Snapshot): (block: seq<int>)
    requires SnapshotEncodable(s)
    ensures IsBlock(block, StatusCount)
  {
    [FromHundredths(s.commandFrequency).value, FromHundredths(s.outputFrequency).value,
     FromTenths(s.outputVoltage).value, s.dcVoltage, FromTenths(s.outputCurrent).value,
     FromTenths(s.temperature).value, s.torque]
  }

  lemma StatusRoundTrip(s: Snapshot)
    requires SnapshotEncodable(s)
    ensures DecodeStatus(EncodeStatus(s), EncodeFlags(s.flags)) == s
  {
    FlagsRoundTrip(s.flags);
  }

  lemma StatusBlockRoundTrip(block: seq<int>, word: int)
    requires IsBlock(block, StatusCount) && IsWord(word)
    ensures SnapshotEncodable(DecodeStatus(block, word))
    ensures EncodeStatus(DecodeStatus(block, word)) == block
  {
    FromHundredthsOfHundredths(block[0]);
    FromHundredthsOfHundredths(block[1]);
    FromTenthsOfTenths(block[2]);
    FromTenthsOfTenths(block[4]);
    FromTenthsOfTenths(block[5]);
  }

  // ---------------------------------------------------------------------------
  // Writes (`set_operation`, `set_frequency`).

  /**
   `set_operation`: a mode outside 0..3 is refused before any I/O; otherwise
   one write of the mode to 0x2501.
   */
  function SetOperation(mode: int): (r: Result<Write, DriverError>)
    ensures r.Ok? <==> 0 <= mode <= 3
    ensures r.Ok? ==> r.value.address == OperationAddress && r.value.value == mode
    ensures r.Err? ==> r.error == InvalidOperation(mode)
  {
    if mode !in {0, 1, 2, 3} then Err(InvalidOperation(mode))
    else Ok(Write(OperationAddress, mode))
  }

  /**
   `set_frequency`: the frequency goes out with two implied decimals, as
   `int(value * 100)` in one unsigned 16-bit register; a value whose encoding
   does not fit is refused and nothing is written.
   */
  function SetFrequency(hz: real): (r: Result<Write, DriverError>)
    ensures r.Ok? <==> -0.01 < hz < 655.36
    ensures r.Ok? ==> r.value.address == FrequencyAddress && IsWord(r.value.value)
    ensures r.Ok? && hz >= 0.0 ==> hz - 0.01 < Hundredths(r.value.value) <= hz
    ensures r.Err? ==> r.error == NotEncodable(hz)
  {
    var v := Trunc(hz * 100.0);
    if IsWord(v) then Ok(Write(FrequencyAddress, v)) else Err(NotEncodable(hz))
  }

  /** A frequency given to the hundredth is sent as exactly the register that encodes it. */
  lemma FrequencyRoundTrip(k: int)
    requires IsWord(k)
    ensures SetFrequency(Hundredths(k)) == Ok(Write(FrequencyAddress, k))
  {
    assert Hundredths(k) * 100.0 == k as real;
  }
}

=== FILE: results.dfy ===
/** Failure-carrying datatypes shared by the rest of the model. */
module Results {

  /** A value that may be absent: Python's `None` versus a real value. */
  datatype Option<+T> = None | Some(value: T)

  /** The outcome of an operation that raises in the source: a value or the error it raised. */
  datatype Result<+T, +E> = Ok(value: T) | Err(error: E)
}

=== FILE: rounding.dfy ===
/**
 The rounding primitives the controller relies on, stated on exact reals:
 Python's `round(x)` (round half to even), `round(x, n)` and the truncating
 `int(x)` conversion.
 */
module Rounding {

  /** 10 to the power n. */
  function Pow10(n: nat): (p: nat)
    ensures p >= 1
  {
    if n == 0 then 1 else 10 * Pow10(n - 1)
  }

  /** x and y differ by at most eps. */
  predicate Within(x: real, y: real, eps: real)
  {
    x - eps <= y <= x + eps
  }

  /** Distances add up along a chain of three values. */
  lemma WithinTriangle(a: real, b: real, c: real, e1: real, e2: real)
    requires Within(a, b, e1) && Within(b, c, e2)
    ensures Within(a, c, e1 + e2)
  {
  }

  /** n is within one half of x, and a tie is broken towards the even neighbour. */
  ghost predicate RoundsTo(x: real, n: int)
  {
    && x - 0.5 <= n as real <= x + 0.5
    && ((n as real - x == 0.5 || x - n as real == 0.5) ==> n % 2 == 0)
  }

  /** Python's `round(x)` with no digit count: nearest integer, ties to even. */
  function Round(x: real): (n: int)
    ensures RoundsTo(x, n)
  {
    var f := x.Floor;
    var d := x - f as real;
    if d < 0.5 then f
    else if d > 0.5 then f + 1
    else if f % 2 == 0 then f
    else f + 1
  }

  /** The characterisation of `RoundsTo` admits exactly one integer, so it pins `Round` down. */
  lemma RoundUnique(x: real, n: int)
    requires RoundsTo(x, n)
    ensures n == Round(x)
  {
  }

  /** Rounding an integer value gives it back. */
  lemma RoundOfInt(k: int)
    ensures Round(k as real) == k
  {
    RoundUnique(k as real, k);
  }

  /** Rounding is monotone. */
  lemma RoundMonotone(x: real, y: real)
    requires x <= y
    ensures Round(x) <= Round(y)
  {
  }

  /** Python's `round(x, digits)`: the nearest multiple of 10^-digits, ties to even. */
  function RoundDigits(x: real, digits: nat): (r: real)
    ensures x - 0.5 / Pow10(digits) as real <= r <= x + 0.5 / Pow10(digits) as real
    ensures OnGrid(r, Pow10(digits) as real) && NearestOnGrid(x, r, Pow10(digits) as real)
  {
    RoundToGrid(x, Pow10(digits) as real)
  }

  /** Rounds x to the nearest multiple of 1/scale, ties to an even multiple. */
  function RoundToGrid(x: real, scale: real): (r: real)
    requires scale >= 1.0
    ensures x - 0.5 / scale <= r <= x + 0.5 / scale
    ensures OnGrid(r, scale) && NearestOnGrid(x, r, scale)
  {
    DivideBounds(x * scale, Round(x * scale) as real, scale);
    assert (x * scale) / scale == x;
    GridFacts(x, scale);
    Round(x * scale) as real / scale
  }

  /**
   Counted in steps of 1/scale, r is the step nearest x, and an even step
   on a tie.
   */
  ghost predicate NearestOnGrid(x: real, r: real, scale: real)
  {
    RoundsTo(x * scale, (r * scale).Floor)
  }

  lemma GridFacts(x: real, scale: real)
    requires scale >= 1.0
    ensures OnGrid(Round(x * scale) as real / scale, scale)
    ensures NearestOnGrid(x, Round(x * scale) as real / scale, scale)
  {
    var n := Round(x * scale);
    UndoScale(n, scale);
  }

  lemma UndoScale(n: int, scale: real)
    requires scale >= 1.0
    ensures (n as real / scale) * scale == n as real
  {
  }

  /** r is a whole multiple of 1/scale: it has no digits beyond the grid. */
  predicate OnGrid(r: real, scale: real)
  {
    (r * scale).Floor as real == r * scale
  }

  /** Dividing a value within 1/2 of another by a positive scale keeps them within 1/(2 scale). */
  lemma DivideBounds(y: real, n: real, p: real)
    requires p >= 1.0
    requires y - 0.5 <= n <= y + 0.5
    ensures (y / p) - 0.5 / p <= n / p <= (y / p) + 0.5 / p
  {
    assert n / p - y / p == (n - y) / p;
  }

  /** A value already on the grid of 10^-digits is left alone by `round(x, digits)`. */
  lemma RoundDigitsOnGrid(k: int, digits: nat)
    ensures RoundDigits(k as real / Pow10(digits) as real, digits) == k as real / Pow10(digits) as real
  {
    RoundToGridOnGrid(k, Pow10(digits) as real);
  }

  lemma RoundToGridOnGrid(k: int, scale: real)
    requires scale >= 1.0
    ensures RoundToGrid(k as real / scale, scale) == k as real / scale
  {
    var x := k as real / scale;
    assert x * scale == k as real;
    RoundOfInt(k);
    RoundToGridUnfold(x, scale);
  }

  lemma RoundToGridUnfold(x: real, scale: real)
    requires scale >= 1.0
    ensures RoundToGrid(x, scale) == Round(x * scale) as real / scale
  {
  }

  /** Python's `int(x)` on a float: truncation towards zero. */
  function Trunc(x: real): (n: int)
    ensures x >= 0.0 ==> 0 <= n && n as real <= x < n as real + 1.0
    ensures x < 0.0 ==> n <= 0 && n as real - 1.0 < x <= n as real
  {
    if x >= 0.0 then x.Floor else -((-x).Floor)
  }

  /** On non-negative values truncation never exceeds rounding and lags it by at most one. */
  lemma TruncBelowRound(x: real)
    requires x >= 0.0
    ensures Round(x) - 1 <= Trunc(x) <= Round(x)
  {
  }
}
